=== FILE: README.md ===
# Camera acquisition servers of labscript_imaging, modelled in Dafny

The repository drives laboratory cameras during labscript experiment shots.
A camera server receives requests over a socket. A shot-file path (`*.h5`)
moves it to buffered mode, where it configures and arms the camera. 'done'
moves it to static mode, where it collects the images and writes them into
the shot file, one dataset per exposure label. 'abort' and 'hello' are the
other requests. This project models:

- **the pco.edge binding** (`PCOCamera`). Buffers are allocated and handed
  to the driver as a FIFO queue (`arm`). `get_images` polls the oldest queued
  buffer, copies it out and re-queues it; its not-ready branch is modelled
  exactly as written. `disarm` stops and frees. The trigger-mode and
  polarity tables, the exposure range check and its time-base conversion,
  and `apply_settings` are modelled too (modules `PcoSettings`, `PcoCamera`).
- **the PointGrey binding's `grabImages`**. The loop skips failed
  retrievals. Each buffer is decoded as little-endian 16-bit words with
  numpy's broadcasting rules and reshaped to rows x cols (modules
  `PixelDecode`, `PgCamera`).
- **`GenericServer.handler`** (module `Dispatcher`). It is a pure function of
  the request, the staged path, and the outcomes of the steps it runs. It
  returns the response or the exception, the new staged path, and whether
  its exception handler called the server's `abort`.
- **the pco and PointGrey servers' transitions** (module `CameraServers`):
  the enable decision, configuration and arming, acquisition, and labelling
  image k with the k-th EXPOSURES label.

Python exceptions are values of `Outcomes.Error`. Every driver, vendor-SDK,
HDF5 or socket call is an oracle answer supplied as a parameter. A `Call`
answers a call that returns a value and an `Outcome` one that returns
nothing. Loops read successive answers from a sequence, and a call past its
end raises. An attribute that `hasattr` tests, or that may be read before it
is first assigned, is an `Option` field. The pco status words and image type,
which only the end of a successful `arm` assigns, are one such field.

Behaviour of the code worth knowing:

- An EXPOSURES table enables the camera even when it is empty; only a
  missing table disables it.
- The servers' `abort` does nothing, so a failed shot leaves the camera armed
  (`CameraServers.FailedShotLeavesArmed`).
- An 'abort' request always raises TypeError (see Findings).
- The exposure range check of the pco binding is skipped (see Findings).
  `apply_settings` is modelled with the check applied as intended.

## Model

| member | source | states |
|---|---|---|
| PcoSettings.TriggerModeTablesInverse | camera_python2.7/pcoedge.py:407-433 | The code-to-name table of `_get_trigger_mode` and the name-to-code table of `_set_trigger_mode` are inverse bijections between the four mode names and codes 0..3. |
| PcoSettings.TriggerModeRoundTrip | camera_python2.7/pcoedge.py:407-433 | Encoding a known mode name and decoding the code gives the name back, and the other way round. |
| PcoSettings.PolarityTablesInverse | camera_python2.7/pcoedge.py:435-454 | The polarity tables map raising to 4 and falling to 8, are inverse, and know no other name or code. |
| PcoSettings.ReadTriggerMode | camera_python2.7/pcoedge.py:407-417 | A read-back succeeds exactly for codes 0..3. The name it caches encodes back to the code read. An unknown code raises KeyError and leaves the cached settings untouched. |
| PcoSettings.SetTriggerMode | camera_python2.7/pcoedge.py:419-433 | It succeeds exactly when the mode is one of the four names, the write passes, and the register reads back that mode's code. It then returns and caches the requested mode. An unknown mode raises KeyError before any driver call. Only the cached trigger mode can change. |
| PcoSettings.TruncateToInt | camera_python2.7/pcoedge.py:479 | Python's `int()` on a float rounds toward zero: the result is within 1 of the input, on the input's side of zero. |
| PcoSettings.ExposureTimeBases | camera_python2.7/pcoedge.py:468-473 | The read-back conversion divides nanoseconds by 1000, keeps microseconds, and multiplies milliseconds by 1000. |
| PcoSettings.MicrosecondReadBack | camera_python2.7/pcoedge.py:483-486 | With the microsecond time base the binding writes, the read-back equals the request exactly when the driver echoes the written value. |
| PcoSettings.ReadExposureTime | camera_python2.7/pcoedge.py:456-475 | It succeeds exactly when both reported time bases are 0, 1 or 2. It then caches the converted exposure and the delay. Otherwise it raises and caches nothing. |
| PcoSettings.WriteExposure | camera_python2.7/pcoedge.py:483-486 | The request goes to the driver as a `c_uint32`, wrapped modulo 2^32. A successful write-and-verify caches a non-negative value equal to the request. A driver that echoes the written microseconds makes a request below 2^32 succeed. With that echo, a request of 2^32 or more, or a negative one, fails with AssertionError. The trigger mode and ROI are untouched. |
| PcoSettings.SetExposureTime | camera_python2.7/pcoedge.py:477-487 | With the range check applied as intended, a request whose truncation lies outside [100, 10^7] µs raises AssertionError and changes nothing. A successful call returns and caches the truncated value. A driver that echoes the written value makes the call succeed. The trigger mode and ROI are untouched. |
| PcoSettings.SetExposureTimeAsWritten | camera_python2.7/pcoedge.py:477-487 | With the identity test false there is no range check. A success caches a non-negative value equal to the truncated request. A truncated request outside [0, 2^32) fails the read-back assertion when the driver echoes the wrapped value it was given. Within [100, 10^7] µs the result equals the intended setter's. |
| PcoSettings.LongExposureWraps | camera_python2.7/pcoedge.py:477-487 | A request of 2^32 + 100 µs is written as 100 µs, so the as-written setter raises AssertionError even with an echoing driver. |
| PcoSettings.ShortExposureAccepted | camera_python2.7/pcoedge.py:479-481 | A 50 µs request that the driver echoes succeeds as written, while the intended range check rejects it with AssertionError and no state change. |
| PcoCamera.Disarm | camera_python2.7/pcoedge.py:313-330 | `armed` is always defined afterwards. Success holds exactly when stopping, cancelling and freeing every allocated buffer all pass. It leaves the camera disarmed with an emptied or still-absent pointer list. On failure the pointers are kept. The queue of added buffers, the settings and the image size never change. |
| PcoCamera.DisarmIdempotent | camera_python2.7/pcoedge.py:313-330 | A second disarm after a successful one changes nothing and succeeds, provided the driver's stop and cancel calls pass. |
| PcoCamera.DisarmUnopened | camera_python2.7/pcoedge.py:319-328 | Disarm works on a camera object before any attribute was assigned and only defines `armed` as False. |
| PcoCamera.Arm | camera_python2.7/pcoedge.py:260-311 | A buffer count outside 1..16 raises AssertionError with the state unchanged. Success holds exactly when every driver step passes and allocation i reports buffer number i. It leaves the camera armed with n pointers, buffers 0..n-1 queued in order, image size width*height*2 bytes, an image type of the new width and height, and the settings unchanged. A failed arm leaves the image type, and the status words, as they were. |
| PcoCamera.GetImages | camera_python2.7/pcoedge.py:332-381 | On a disarmed camera, success requires the arm with 3 buffers to succeed and leaves 3 pointers. On an armed camera, asking for more images than queued buffers raises AssertionError with no state change. A successful call returns exactly k images of the current height and width. The settings are untouched. |
| PcoCamera.CopyImage | camera_python2.7/pcoedge.py:371-372 | Copying buffer n succeeds exactly when its pointer exists and the image type's (height, width) broadcasts to the output slot, each dimension equal or 1. |
| PcoCamera.Acquire | camera_python2.7/pcoedge.py:362-376 | A completed loop yields one source buffer per iteration. Without the status words that a completed `arm` creates, the first poll raises, IndexError on an empty queue and AttributeError otherwise, and leaves the queue untouched. |
| PcoCamera.AcquireRotates | camera_python2.7/pcoedge.py:362-376 | When every poll finds the oldest buffer ready, image j is copied from the j-th queued buffer. Those k buffers move, in order, to the back of the queue. |
| PcoCamera.GetImagesRotatesQueue | camera_python2.7/pcoedge.py:332-381 | On an armed camera whose image type fits, with all polls ready, `get_images(k)` returns the first k queued buffers and rotates the queue by k, preserving its length and its multiset of buffer numbers. |
| PcoCamera.ArmThenGetImages | camera_python2.7/pcoedge.py:260-381 | After a successful `arm(n)`, taking k <= n ready images reads buffers 0..k-1 and leaves the queue k..n-1 followed by 0..k-1. |
| PcoCamera.GetImagesArmsDefault | camera_python2.7/pcoedge.py:348 | On a disarmed camera whose default arm succeeds, `get_images(k)` is `get_images(k)` on the camera armed with 3 buffers, and it leaves 3 pointers. |
| PcoCamera.PartialArmLacksStatus | camera_python2.7/pcoedge.py:299-310 | A first `arm(3)` whose third `add_buffer` raises leaves the camera armed with buffers 0 and 1 queued but no status words. A following `get_images(2)` then raises AttributeError at its first poll. |
| PcoCamera.FirstPollNotReady | camera_python2.7/pcoedge.py:362-376 | A buffer not ready at the first poll leaves `buffer_number` unbound. The call raises UnboundLocalError and the queue is untouched. |
| PcoCamera.StalePollDuplicates | camera_python2.7/pcoedge.py:362-376 | Ready at the first poll and not ready at the second, the stale buffer is copied twice and re-queued twice, so the queue grows by one. |
| PcoCamera.ApplySettings | camera_python2.7/pcoedge.py:231-258 | With the intended exposure range check, success leaves the camera disarmed with the requested trigger mode (one of the four), the truncated exposure (within [100, 10^7] µs) and the requested ROI, or the full chip by default. A camera that was already disarmed keeps its buffers and queue. A camera object whose `armed` was never assigned raises AttributeError. |
| PixelDecode.DecodeWords | camera_python2.7/pgcam.py:170-186 | An even-length buffer decodes to n/2 words, word j being `b[2j] + 256*b[2j+1]`. Every decoded value is below 65536. Decoding fails exactly for odd lengths of 5 or more. Length 1 gives no words and length 3 broadcasts the single high byte. |
| PixelDecode.DecodeEncode | camera_python2.7/pgcam.py:170-186 | Decoding the little-endian bytes of any 16-bit words gives the words back. |
| PixelDecode.EncodeDecode | camera_python2.7/pgcam.py:170-186 | Every even-length byte buffer is the little-endian encoding of its decoded words. |
| PixelDecode.Reshape | camera_python2.7/pgcam.py:188-192 | The reshape succeeds exactly when rows*cols equals the word count. It then gives `rows` rows of `cols` words whose row-major reading is the words. |
| PixelDecode.ReshapePixel | camera_python2.7/pgcam.py:188-192 | Pixel (i, j) of the reshaped image is word i*cols + j. |
| PixelDecode.FlattenReshape | camera_python2.7/pgcam.py:188-192 | Flattening a rectangular image and reshaping it to the same shape gives it back. |
| PgCamera.DecodeImage | camera_python2.7/pgcam.py:170-192 | A buffer of 2*rows*cols bytes decodes to a rows x cols image whose row-major reading is its decoded words. Any other even size raises ValueError. |
| PgCamera.GrabImages | camera_python2.7/pgcam.py:150-195 | It returns at most max(n, 0) frames and stores them as the camera's image list. Capture state is untouched. Without crashes it succeeds exactly when every retrieved buffer decodes, and it then returns the decoded buffers in retrieval order. |
| PgCamera.GrabMatchesReference | camera_python2.7/pgcam.py:162-192 | Skipping failed retrievals: the loop's frames equal the decoding of the successful retrievals, and it fails exactly when one of them does not decode. |
| PgCamera.DecodeAll | camera_python2.7/pgcam.py:170-192 | Decoding a list of buffers succeeds with one frame per buffer, each its own decoding, or fails because some buffer does not decode. |
| PgCamera.AllRetrieved | camera_python2.7/pgcam.py:150-195 | When every one of n retrievals succeeds and decodes, n frames come back, frame k being the decoding of buffer k. |
| Dispatcher.Dispatch | camera_python2.7/camera_server.py:28-58 | Every exception clears the staged path. The internal abort runs only on an exception for a request other than 'abort'. An unknown request raises ValueError and aborts exactly when a path was staged. A shot path is staged before its transition, succeeds exactly when both socket steps and the transition succeed, and aborts on any later failure. 'done' hands the staged path to the static transition, clears it on success, and aborts on failure exactly when a path was staged. |
| Dispatcher.Handler | camera_python2.7/camera_server.py:28-58 | As written, an 'abort' request raises TypeError without touching the camera and clears the staged path. Every other request behaves as in `Dispatch`. |
| Dispatcher.HandlerIntended | camera_python2.7/camera_server.py:45-48 | Calling `abort()` without arguments: the request clears the staged path, never triggers the internal abort, and answers 'ok' exactly when the server's abort succeeds, else its error. |
| Dispatcher.AbortRequestRaises | camera_python2.7/camera_server.py:45-48 | Even with an abort that always succeeds, the as-written handler answers an 'abort' request with TypeError, while the corrected one answers 'ok'. |
| Dispatcher.AbortErrorSwallowed | camera_python2.7/camera_server.py:51-58 | What the internal abort does never changes the response, the staged path or whether it ran: an exception inside it is swallowed and the original is re-raised. |
| Dispatcher.CleanupContract | camera_python2.7/camera_server.py:51-58 | After an exception the staged path is None and the response is the `try` block's exception. The internal abort ran exactly when the failure happened with a path staged and the request was not 'abort'. A success is the `try` block's result unchanged. |
| PcoCamera.ApplySettingsSucceeds | camera_python2.7/pcoedge.py:231-258 | With `armed` defined and any needed disarm succeeding, a known trigger mode, an exposure within range and a driver that accepts and echoes every write, `apply_settings` succeeds. |
| CameraServers.Label | camera_python2.7/camera_server.py:277-280 | Image k is stored under label k, in order. Without a table the first image raises TypeError. More images than labels stores the labelled ones, then raises ValueError, the h5py 2 error for an integer index out of a dataset's range. No images store nothing and succeed. |
| CameraServers.PcoToBuffered | camera_python2.7/camera_server.py:237-263 | A failing read of the exposure time changes nothing. The exposure time is assigned before the EXPOSURES table is read, so a failing table read leaves only it changed. Otherwise the server is enabled exactly when the device has an EXPOSURES table, and without one the camera is untouched. An enabled, successful transition leaves the camera armed with buffers 0..2 queued, external triggering and the fixed ROI. Nothing is stored. |
| CameraServers.PcoToStatic | camera_python2.7/camera_server.py:265-280 | A disabled server does nothing. A successful enabled transition acquired 3 images and disarmed the camera. It needed a path and an EXPOSURES table of at least 3 labels, and stored 3 datasets named by the first 3 labels. A failed acquisition stores nothing. Earlier datasets are always kept. |
| CameraServers.PgToBuffered | camera_python2.7/camera_server.py:177-200 | A failing read of the exposure time changes nothing. A failing read of the EXPOSURES table leaves only the exposure time changed. Otherwise the server is enabled exactly when the device has an EXPOSURES table, and without one the camera is untouched. An enabled, successful transition leaves the camera capturing. Nothing is stored. |
| CameraServers.PgToStatic | camera_python2.7/camera_server.py:202-219 | A disabled server does nothing. A successful enabled transition made one retrieval attempt per label, stored each grabbed frame k under label k, and stopped capture. A failed grab leaves capture running. Earlier datasets are always kept. |
| CameraServers.PcoHandle | camera_python2.7/camera_server.py:28-58 | The pco server's handler clears the staged path on every exception and answers an 'abort' request with TypeError. |
| CameraServers.PcoShot | camera_python2.7/camera_server.py:237-280 | A shot whose every call succeeds and whose buffers are all ready answers 'done' twice and stages the path, then clears it. It leaves the camera disarmed and stores the images of buffers 0, 1, 2 under the first three exposure labels. |
| CameraServers.FailedShotLeavesArmed | camera_python2.7/camera_server.py:285-286 | Because the server's abort does nothing, a 'done' request whose socket exchange fails reports the error and clears the path, yet leaves an armed camera armed. |

## Left out

- Loading the pco DLL through ctypes, the argument type declarations and the `PCO_Signal` structure are not modelled; only the results of the calls are.
- `_set_trigger_polarity` is not modelled: `apply_settings` never calls it. Only its tables are (`PcoSettings.PolarityTablesInverse`).
- `_get_temperature`, `_get_roi`'s rolling-time computation and `_refresh_camera_setting_attributes` are left out. They only read floating-point diagnostics.
- `PCOCamera.__init__` and `close` are left out: opening and closing the camera are vendor calls. `Unopened` stands for the object before its first `disarm`.
- `PcoSettings.ExposureMicros` uses exact reals. Float rounding of `10.**(3*tb - 3)` for the nanosecond base is not modelled.
- `PcoCamera.Arm` folds `set_image_parameters` and `set_recording_state(1)` into one driver answer. It does not model the ctypes `uint16` truncation of sizes.
- `PcoCamera.GetImages` records which buffer each image was copied from, not the pixel values: the copy from driver memory is a foreign call.
- `PcoCamera.CopyImage` raises ValueError for an image type left over from an earlier, larger `arm`. It does not model `from_address` reading past the smaller buffer before numpy refuses the shape.
- `PcoCamera.ApplySettings` does not model the ctypes `uint16` truncation of ROI coordinates passed to `set_roi`.
- `PcoCamera.ApplySettings` uses the intended exposure setter `PcoSettings.SetExposureTime`, so it rejects an exposure outside [100, 10^7] µs that the code as written accepts (`PcoSettings.ShortExposureAccepted`, see Findings).
- `CameraServers.PcoToBuffered` inherits that range check through `PcoCamera.ApplySettings`: a shot whose global exposure time lies outside [100, 10^7] µs fails here, while the code as written would configure and arm the camera.
- `PixelDecode.DecodeWords` assumes the NumPy 1.x value-based casting of `256*hi`, which widens the bytes so no word overflows.
- `PgCamera.GrabImages` does not model the final `np.array` conversion of the frame list or the stride the binding reads and ignores.
- The PointGrey setters (`setTriggerMode`, `setExposureTime`, `setGrabMode`, `setPixelFormat`, `softwareTrigger`) are vendor calls. `CameraServers.PgToBuffered` takes them as one configuration answer.
- `CameraServers.PcoToStatic` and `CameraServers.PgToStatic` treat writing a dataset as always succeeding. Two equal labels are stored twice instead of raising as HDF5 would.
- `CameraServers.PcoToStatic` and `CameraServers.PgToStatic` raise TypeError when no path was staged. The exception class `h5py.File(None)` actually raises is not modelled.
- Reading the shot file, `path_to_local`, the ZeroMQ send and receive, printing, logging and timestamps are oracle answers or are omitted.
- `HamamatsuCameraServer`, the Hamamatsu binding and `start_main_cams` are not part of this model.

## Findings

| source | as written | input that shows it | evidently intended | confidence | as-written member | corrected member |
|---|---|---|---|---|---|---|
| camera_python2.7/camera_server.py:45-48 | the 'abort' branch calls `self.abort(self, self._h5_filepath)` on a bound method that takes no argument | the request 'abort', with or without a staged path: TypeError is raised and the server's abort never runs | `self.abort()`, answering 'ok' | high, not executed | Dispatcher.Handler | Dispatcher.HandlerIntended |
| camera_python2.7/pcoedge.py:480-481 | the exposure range check is guarded by `self.camera_type is 'edge 4.2'`, an identity test between two string constants compiled in different functions; CPython 2.7 interns only identifier-like constants, so the test is false | `apply_settings(exposure_time = 50)` with a driver that echoes 50: the camera is set to 50 µs instead of raising AssertionError | `self.camera_type == 'edge 4.2'`, as `_get_roi` writes it, so the range check applies | medium, not executed | PcoSettings.SetExposureTimeAsWritten | PcoSettings.SetExposureTime |

=== FILE: camera_servers.dfy ===
/** The pco.edge and PointGrey camera servers: their transitions to buffered
    (decide whether the camera takes part in the shot, configure and arm it)
    and to static (acquire, store each image under its exposure label).

    Shot-file reads and writes are oracle answers. A dataset written to the
    shot file is recorded in the server's `stored` list.
 */
module CameraServers {
  import opened Outcomes
  import opened PcoSettings
  import opened PcoCamera
  import opened PgCamera
  import opened Dispatcher

  /** The exposure labels of a device: `str(exposures[k][0])` for each row of
      its EXPOSURES table, in order. */
  type Manifest = seq<string>

  /** A dataset written to the shot file's data group. */
  datatype Dataset<T> = Dataset(name: string, image: T)

  function Min(a: nat, b: nat): nat {
    if a <= b then a else b
  }

  /** The `for k, image in enumerate(images)` loop: image k is stored under
      label k. An absent table raises TypeError on the first image; running
      past its end raises ValueError, as h5py 2 does for an integer index out
      of a dataset's range, after the earlier images were stored. */
  function Label<T>(exposures: Option<Manifest>, images: seq<T>): (r: (seq<Dataset<T>>, Outcome))
    ensures r.1.Pass? <==> |images| == 0 || (exposures.Some? && |images| <= |exposures.value|)
    ensures r.1.Pass? ==> |r.0| == |images|
    ensures exposures.None? ==> r.0 == []
    ensures exposures.Some? ==>
              && |r.0| == Min(|images|, |exposures.value|)
              && forall k :: 0 <= k < |r.0| ==> r.0[k] == Dataset(exposures.value[k], images[k])
    ensures exposures.Some? && r.1.Fail? ==> r.1.error == ValueError
  {
    if |images| == 0 then ([], Pass)
    else if exposures.None? then ([], Fail(TypeError))
    else
      var m := exposures.value;
      var n := Min(|images|, |m|);
      (seq(n, k requires 0 <= k < n => Dataset(m[k], images[k])),
       if |images| <= |m| then Pass else Fail(ValueError))
  }

  /** The servers' own `abort`: it does nothing. */
  function NoAbort<S>(s: S): Effect<S> {
    Effect(s, Pass)
  }

  // -------------------------------------------------------------- pco.edge

  /** One image of the (3, height, width) array `get_images` returns. */
  datatype PcoImage = PcoImage(buffer: nat, height: nat, width: nat)

  datatype PcoServer = PcoServer(
    enable: bool,
    exposureTime: Option<int>,
    exposures: Option<Manifest>,
    camera: Camera,
    stored: seq<Dataset<PcoImage>>)

  /** Trigger mode, ROI and buffer count the pco server always uses. */
  const PcoTrigger := "external_trigger"
  const PcoRoi := Roi(800, 750, 1400, 1300)
  const PcoBuffers := 3

  /** The images of an acquisition, one per buffer read. */
  function PcoImages(images: Images): seq<PcoImage> {
    seq(|images.buffers|, k requires 0 <= k < |images.buffers| =>
      PcoImage(images.buffers[k], images.height, images.width))
  }

  datatype PcoBufferedIo = PcoBufferedIo(
    exposureTime: Call<int>,             // int(p['globals'].attrs['pcoe_exposure_time'])
    exposures: Call<Option<Manifest>>,   // p['devices'][name].get('EXPOSURES')
    settings: SettingsIo,
    arm: ArmIo)

  /** `pcoedgeCameraServer.transition_to_buffered`: read the exposure time
      (assigned at once), then the device's EXPOSURES table, absent when the
      device has none; enable the camera iff it is present, and if so apply
      the fixed settings and arm 3 buffers. */
  function PcoToBuffered(srv: PcoServer, path: string, io: PcoBufferedIo): (r: Effect<PcoServer>)
    ensures io.exposureTime.Raises? ==> r == Effect(srv, Fail(io.exposureTime.error))
    ensures io.exposureTime.Returns? ==> r.state.exposureTime == Some(io.exposureTime.value)
    ensures io.exposureTime.Returns? && io.exposures.Raises? ==>
              r.outcome == Fail(io.exposures.error) && r.state.enable == srv.enable && r.state.camera == srv.camera
    ensures io.exposureTime.Returns? && io.exposures.Returns? ==>
              && r.state.enable == io.exposures.value.Some?
              && r.state.exposures == io.exposures.value
    ensures io.exposureTime.Returns? && io.exposures == Returns(None) ==> r.state.camera == srv.camera && r.outcome.Pass?
    ensures r.state.enable && r.outcome.Pass? ==>
              && r.state.camera.armed == Some(true)
              && r.state.camera.added == Some(Range(PcoBuffers))
              && r.state.camera.settings.triggerMode == Some(PcoTrigger)
              && r.state.camera.settings.roi == Some(PcoRoi)
    ensures r.state.stored == srv.stored
  {
    match io.exposureTime
    case Raises(e) => Effect(srv, Fail(e))
    case Returns(t) =>
      var timed := srv.(exposureTime := Some(t));
      match io.exposures
      case Raises(e) => Effect(timed, Fail(e))
      case Returns(table) =>
        var read := timed.(exposures := table);
        if table.None? then Effect(read.(enable := false), Pass)
        else
          var enabled := read.(enable := true);
          var a := ApplySettings(enabled.camera, PcoTrigger, t as real, Some(PcoRoi), io.settings);
          if a.result.Err? then Effect(enabled.(camera := a.state), Fail(a.result.error))
          else
            var b := Arm(a.state, PcoBuffers, io.arm);
            if b.result.Err? then Effect(enabled.(camera := b.state), Fail(b.result.error))
            else Effect(enabled.(camera := b.state), Pass)
  }

  /** Answers for `pcoedgeCameraServer.transition_to_static`: acquiring,
      disarming, opening the shot file, creating the data group, and the
      read of the EXPOSURES table, which raises when the device is missing. */
  datatype PcoStaticIo = PcoStaticIo(acquire: AcquireIo, disarm: DisarmIo, open: Outcome, group: Outcome,
                                     file: Call<Option<Manifest>>)

  /** `pcoedgeCameraServer.transition_to_static`: when enabled, take 3
      images, disarm, then store image k under the k-th exposure label. A
      missing path fails when the shot file is opened. */
  function PcoToStatic(srv: PcoServer, path: Option<string>, io: PcoStaticIo): (r: Effect<PcoServer>)
    ensures !srv.enable ==> r == Effect(srv, Pass)
    ensures srv.enable && r.outcome.Pass? ==>
              && GetImages(srv.camera, PcoBuffers, io.acquire).result.Ok?
              && r.state.camera.armed == Some(false)
              && path.Some?
              && io.open.Pass? && io.group.Pass? && io.file.Returns? && io.file.value.Some?
              && |io.file.value.value| >= PcoBuffers
              && |r.state.stored| == |srv.stored| + PcoBuffers
              && forall k :: 0 <= k < PcoBuffers ==>
                   r.state.stored[|srv.stored| + k].name == io.file.value.value[k]
    ensures srv.enable && GetImages(srv.camera, PcoBuffers, io.acquire).result.Err? ==>
              r.outcome.Fail? && r.state.stored == srv.stored
    ensures |srv.stored| <= |r.state.stored| && r.state.stored[..|srv.stored|] == srv.stored
    ensures r.state.enable == srv.enable
  {
    if !srv.enable then Effect(srv, Pass)
    else
      var g := GetImages(srv.camera, PcoBuffers, io.acquire);
      if g.result.Err? then Effect(srv.(camera := g.state), Fail(g.result.error))
      else
        var d := Disarm(g.state, io.disarm);
        var disarmed := srv.(camera := d.state);
        if d.result.Err? then Effect(disarmed, Fail(d.result.error))
        else if path.None? then Effect(disarmed, Fail(TypeError))
        else if io.open.Fail? then Effect(disarmed, Fail(io.open.error))
        else if io.group.Fail? then Effect(disarmed, Fail(io.group.error))
        else
          match io.file
          case Raises(e) => Effect(disarmed, Fail(e))
          case Returns(table) =>
            var labelled := Label(table, PcoImages(g.result.value));
            Effect(disarmed.(stored := srv.stored + labelled.0), labelled.1)
  }

  // ------------------------------------------------------------- PointGrey

  datatype PgServer = PgServer(
    enable: bool,
    exposureTime: Option<real>,
    exposures: Option<Manifest>,
    camera: PgCam,
    stored: seq<Dataset<Frame>>)

  /** Answers for `PointGreyCameraServer.transition_to_buffered`: the globals,
      the configuration calls that can raise, and starting capture. */
  datatype PgBufferedIo = PgBufferedIo(
    exposureTime: Call<real>,            // float(...attrs['pg_exposure_time'])
    exposures: Call<Option<Manifest>>,   // p['devices'][name].get('EXPOSURES')
    configure: Outcome,
    start: Outcome)

  /** `PointGreyCameraServer.transition_to_buffered`: read the exposure time
      (assigned at once), then the EXPOSURES table; enable the camera iff the
      table is present, and if so configure it and start capturing. */
  function PgToBuffered(srv: PgServer, path: string, io: PgBufferedIo): (r: Effect<PgServer>)
    ensures io.exposureTime.Raises? ==> r == Effect(srv, Fail(io.exposureTime.error))
    ensures io.exposureTime.Returns? ==> r.state.exposureTime == Some(io.exposureTime.value)
    ensures io.exposureTime.Returns? && io.exposures.Raises? ==>
              r.outcome == Fail(io.exposures.error) && r.state.enable == srv.enable && r.state.camera == srv.camera
    ensures io.exposureTime.Returns? && io.exposures.Returns? ==>
              && r.state.enable == io.exposures.value.Some?
              && r.state.exposures == io.exposures.value
    ensures io.exposureTime.Returns? && io.exposures == Returns(None) ==> r.state.camera == srv.camera && r.outcome.Pass?
    ensures r.state.enable && r.outcome.Pass? ==> r.state.camera.capturing
    ensures r.state.stored == srv.stored
  {
    match io.exposureTime
    case Raises(e) => Effect(srv, Fail(e))
    case Returns(t) =>
      var timed := srv.(exposureTime := Some(t));
      match io.exposures
      case Raises(e) => Effect(timed, Fail(e))
      case Returns(table) =>
        var read := timed.(exposures := table);
        if table.None? then Effect(read.(enable := false), Pass)
        else
          var enabled := read.(enable := true);
          if io.configure.Fail? then Effect(enabled, Fail(io.configure.error))
          else if io.start.Fail? then Effect(enabled, Fail(io.start.error))
          else Effect(enabled.(camera := enabled.camera.(capturing := true)), Pass)
  }

  /** Answers for `PointGreyCameraServer.transition_to_static`: the EXPOSURES
      table of the shot file, the buffer retrievals, creating the data group,
      stopping capture. */
  datatype PgStaticIo = PgStaticIo(file: Call<Option<Manifest>>, retrievals: seq<Retrieval>, group: Outcome, stop: Outcome)

  /** `PointGreyCameraServer.transition_to_static`: when enabled, grab one
      image per exposure, store image k under label k, then stop capture. An
      error while grabbing leaves capture running. */
  function PgToStatic(srv: PgServer, path: Option<string>, io: PgStaticIo): (r: Effect<PgServer>)
    ensures !srv.enable ==> r == Effect(srv, Pass)
    ensures srv.enable && r.outcome.Pass? ==>
              && !r.state.camera.capturing
              && path.Some? && io.file.Returns? && io.file.value.Some?
              && var m := io.file.value.value;
                 var frames := GrabImages(srv.camera, |m|, io.retrievals).result;
                 && frames.Ok?
                 && |frames.value| <= |m|
                 && |r.state.stored| == |srv.stored| + |frames.value|
                 && forall k :: 0 <= k < |frames.value| ==>
                      r.state.stored[|srv.stored| + k] == Dataset(m[k], frames.value[k])
    ensures srv.enable && path.Some? && io.file.Returns? && io.file.value.Some?
            && GrabImages(srv.camera, |io.file.value.value|, io.retrievals).result.Err?
            ==> r.outcome.Fail? && r.state.camera.capturing == srv.camera.capturing
    ensures |srv.stored| <= |r.state.stored| && r.state.stored[..|srv.stored|] == srv.stored
  {
    if !srv.enable then Effect(srv, Pass)
    else if path.None? then Effect(srv, Fail(TypeError))
    else
      match io.file
      case Raises(e) => Effect(srv, Fail(e))
      case Returns(exposures) =>
        if exposures.None? then Effect(srv, Fail(TypeError))
        else
          var g := GrabImages(srv.camera, |exposures.value|, io.retrievals);
          var grabbed := srv.(camera := g.state);
          if g.result.Err? then Effect(grabbed, Fail(g.result.error))
          else if io.group.Fail? then Effect(grabbed, Fail(io.group.error))
          else
            var labelled := Label(exposures, g.result.value);
            var written := grabbed.(stored := srv.stored + labelled.0);
            if io.stop.Fail? then Effect(written, Fail(io.stop.error))
            else Effect(written.(camera := written.camera.(capturing := false)), Pass)
  }

  // ---------------------------------------------------------------- session

  /** Answers for one pco shot: the 'path.h5' request and its transition,
      then the 'done' request and its transition. */
  datatype PcoShotIo = PcoShotIo(
    begin: Exchange, buffered: PcoBufferedIo,
    finish: Exchange, ending: PcoStaticIo)

  /** The pco server handling one request. */
  function PcoHandle(req: string, staged: Option<string>, srv: PcoServer, io: Exchange,
                     buffered: PcoBufferedIo, ending: PcoStaticIo): (r: Handled<PcoServer>)
    ensures r.response.Err? ==> r.staged == None
    ensures req == "abort" ==> r == Handled(srv, None, Err(TypeError), false)
  {
    Handler(req, staged, srv, io,
            (s: PcoServer, p: string) => PcoToBuffered(s, p, buffered),
            (s: PcoServer, p: Option<string>) => PcoToStatic(s, p, ending),
            NoAbort)
  }

  /** A whole pco shot in which every call succeeds and every buffer is ready:
      both requests answer 'done', nothing stays staged, the camera ends
      disarmed, and the three images, read from buffers 0, 1, 2, are stored
      under the first three exposure labels. */
  lemma PcoShot(file: string, srv: PcoServer, io: PcoShotIo, m: Manifest, exposureTime: int)
    requires IsShotFile(file)
    requires srv.camera.armed == Some(false)
    requires io.begin == Exchange(Returns(file), Pass, Pass)
    requires io.finish.send.Pass? && io.finish.recv.Pass?
    requires io.buffered.exposureTime == Returns(exposureTime) && io.buffered.exposures == Returns(Some(m))
    requires io.ending.open.Pass? && io.ending.group.Pass?
    requires io.ending.file == Returns(Some(m)) && |m| >= PcoBuffers
    requires ApplySettings(srv.camera, PcoTrigger, exposureTime as real, Some(PcoRoi), io.buffered.settings).result.Ok?
    requires ArmSucceeds(ApplySettings(srv.camera, PcoTrigger, exposureTime as real, Some(PcoRoi), io.buffered.settings).state,
                         PcoBuffers, io.buffered.arm)
    requires AllReady(io.ending.acquire, 0, PcoBuffers)
    requires io.ending.disarm.stopRecording.Pass? && io.ending.disarm.cancel.Pass?
    requires forall j :: 0 <= j < PcoBuffers ==> OutcomeAt(io.ending.disarm.freed, j).Pass?
    ensures var first := PcoHandle(file, None, srv, io.begin, io.buffered, io.ending);
            var second := PcoHandle("done", first.staged, first.state, io.finish, io.buffered, io.ending);
            && first.response == Ok("done") && first.staged == Some(file)
            && second.response == Ok("done") && second.staged == None
            && second.state.camera.armed == Some(false)
            && |second.state.stored| == |srv.stored| + PcoBuffers
            && forall k :: 0 <= k < PcoBuffers ==>
                 second.state.stored[|srv.stored| + k]
                 == Dataset(m[k], PcoImage(k, second.state.camera.height, second.state.camera.width))
  {
    var first := PcoHandle(file, None, srv, io.begin, io.buffered, io.ending);
    var a := ApplySettings(srv.camera, PcoTrigger, exposureTime as real, Some(PcoRoi), io.buffered.settings);
    var armed := Arm(a.state, PcoBuffers, io.buffered.arm).state;
    assert first.state.camera == armed;
    ArmThenGetImages(a.state, PcoBuffers, PcoBuffers, io.buffered.arm, io.ending.acquire);
    var g := GetImages(armed, PcoBuffers, io.ending.acquire);
    assert g.result == Ok(Images(armed.height, armed.width, Range(PcoBuffers)));
    assert FreesAll(g.state, io.ending.disarm);
    var second := PcoHandle("done", first.staged, first.state, io.finish, io.buffered, io.ending);
    assert second.state.camera == Disarm(g.state, io.ending.disarm).state;
  }

  /** The servers' `abort` does nothing, so a shot that fails after the
      camera was armed leaves it armed: a failing 'done' exchange reports the
      error and clears the staged path, yet the camera is still recording. */
  lemma FailedShotLeavesArmed(staged: string, srv: PcoServer, io: Exchange,
                              buffered: PcoBufferedIo, ending: PcoStaticIo)
    requires srv.camera.armed == Some(true)
    requires io.send.Fail?
    ensures var r := PcoHandle("done", Some(staged), srv, io, buffered, ending);
            && r.response == Err(io.send.error)
            && r.staged == None
            && r.internalAbort
            && r.state.camera.armed == Some(true)
  {
  }
}

=== FILE: dispatcher.dfy ===
/** The request handler every camera server shares (`GenericServer.handler`).

    The server's only own state is the staged file path. The camera-specific
    transitions and the server's `abort` are parameters: each maps the
    camera-server state to a new one and reports whether it raised. Sending
    the intermediate 'ok', waiting for the peer's answer and localising the
    path are oracle answers.
 */
module Dispatcher {
  import opened Outcomes

  /** A camera-server transition: the state it leaves and how it ended. */
  datatype Effect<S> = Effect(state: S, outcome: Outcome)

  /** Answers of the calls a request may make besides the transitions: path
      localisation, sending 'ok', receiving the peer's reply. */
  datatype Exchange = Exchange(localised: Call<string>, send: Outcome, recv: Outcome)

  /** What one handled request leaves: the camera-server state, the staged
      path, the response or the exception raised, and whether the exception
      handler invoked the server's `abort`. */
  datatype Handled<S> = Handled(state: S, staged: Option<string>, response: Result<string>, internalAbort: bool)

  /** How the 'abort' branch calls the server's `abort`: as written, with two
      extra arguments, or as evidently intended, with none. */
  datatype AbortCall = WithExtraArguments | WithoutArguments

  /** Python's `str.endswith`. */
  predicate EndsWith(s: string, suffix: string) {
    |suffix| <= |s| && s[|s| - |suffix|..] == suffix
  }

  /** Requests that name a shot file. */
  predicate IsShotFile(req: string) {
    EndsWith(req, ".h5")
  }

  /** A request no branch of the handler recognises. */
  predicate Unrecognised(req: string) {
    req != "hello" && !IsShotFile(req) && req != "done" && req != "abort"
  }

  /** The `try` block of the handler: the state and staged path it reaches,
      and what it returns or raises. */
  function Attempt<S>(call: AbortCall, req: string, staged: Option<string>, cam: S, io: Exchange,
                      toBuffered: (S, string) -> Effect<S>,
                      toStatic: (S, Option<string>) -> Effect<S>,
                      abort: S -> Effect<S>): Handled<S>
  {
    if req == "hello" then Handled(cam, staged, Ok("hello"), false)
    else if IsShotFile(req) then
      match io.localised
      case Raises(e) => Handled(cam, staged, Err(e), false)
      case Returns(path) =>
        if io.send.Fail? then Handled(cam, Some(path), Err(io.send.error), false)
        else if io.recv.Fail? then Handled(cam, Some(path), Err(io.recv.error), false)
        else
          var t := toBuffered(cam, path);
          if t.outcome.Fail? then Handled(t.state, Some(path), Err(t.outcome.error), false)
          else Handled(t.state, Some(path), Ok("done"), false)
    else if req == "done" then
      if io.send.Fail? then Handled(cam, staged, Err(io.send.error), false)
      else if io.recv.Fail? then Handled(cam, staged, Err(io.recv.error), false)
      else
        var t := toStatic(cam, staged);
        if t.outcome.Fail? then Handled(t.state, staged, Err(t.outcome.error), false)
        else Handled(t.state, None, Ok("done"), false)
    else if req == "abort" then
      match call
      case WithExtraArguments => Handled(cam, staged, Err(TypeError), false)
      case WithoutArguments =>
        var a := abort(cam);
        if a.outcome.Fail? then Handled(a.state, staged, Err(a.outcome.error), false)
        else Handled(a.state, None, Ok("ok"), false)
    else Handled(cam, staged, Err(ValueError), false)
  }

  /** The handler: run the `try` block; on an exception, call `abort` when a
      path is staged and the request was not 'abort', swallow whatever that
      call raises, clear the staged path and re-raise the original. */
  function Dispatch<S>(call: AbortCall, req: string, staged: Option<string>, cam: S, io: Exchange,
                       toBuffered: (S, string) -> Effect<S>,
                       toStatic: (S, Option<string>) -> Effect<S>,
                       abort: S -> Effect<S>): (r: Handled<S>)
    ensures req == "hello" ==> r == Handled(cam, staged, Ok("hello"), false)
    ensures r.response.Err? ==> r.staged == None
    ensures r.internalAbort ==> r.response.Err? && req != "abort"
    ensures req == "abort" ==> r.staged == None && !r.internalAbort
    ensures Unrecognised(req) ==>
              && r.response == Err(ValueError)
              && r.staged == None
              && r.internalAbort == staged.Some?
              && r.state == (if staged.Some? then abort(cam).state else cam)
    ensures IsShotFile(req) && io.localised.Returns? ==>
              var path := io.localised.value;
              && (r.response.Ok? <==> io.send.Pass? && io.recv.Pass? && toBuffered(cam, path).outcome.Pass?)
              && (r.response.Ok? ==>
                    r == Handled(toBuffered(cam, path).state, Some(path), Ok("done"), false))
              && (r.response.Err? ==> r.internalAbort)
    ensures IsShotFile(req) && io.localised.Raises? ==>
              r.response == Err(io.localised.error) && r.internalAbort == staged.Some?
    ensures req == "done" ==>
              && (r.response.Ok? <==> io.send.Pass? && io.recv.Pass? && toStatic(cam, staged).outcome.Pass?)
              && (r.response.Ok? ==> r == Handled(toStatic(cam, staged).state, None, Ok("done"), false))
              && (r.response.Err? ==> r.internalAbort == staged.Some?)
  {
    var t := Attempt(call, req, staged, cam, io, toBuffered, toStatic, abort);
    if t.response.Ok? then t
    else if t.staged.Some? && req != "abort" then Handled(abort(t.state).state, None, t.response, true)
    else Handled(t.state, None, t.response, false)
  }

  /** `GenericServer.handler` as written. */
  function Handler<S>(req: string, staged: Option<string>, cam: S, io: Exchange,
                      toBuffered: (S, string) -> Effect<S>,
                      toStatic: (S, Option<string>) -> Effect<S>,
                      abort: S -> Effect<S>): (r: Handled<S>)
    ensures req == "abort" ==> r == Handled(cam, None, Err(TypeError), false)
    ensures req != "abort" ==> r == Dispatch(WithoutArguments, req, staged, cam, io, toBuffered, toStatic, abort)
  {
    Dispatch(WithExtraArguments, req, staged, cam, io, toBuffered, toStatic, abort)
  }

  /** The handler with the 'abort' branch calling `abort()` as intended. */
  function HandlerIntended<S>(req: string, staged: Option<string>, cam: S, io: Exchange,
                              toBuffered: (S, string) -> Effect<S>,
                              toStatic: (S, Option<string>) -> Effect<S>,
                              abort: S -> Effect<S>): (r: Handled<S>)
    ensures req == "abort" ==>
              && r.staged == None
              && !r.internalAbort
              && r.state == abort(cam).state
              && (r.response.Ok? <==> abort(cam).outcome.Pass?)
              && (r.response.Ok? ==> r.response.value == "ok")
              && (r.response.Err? ==> r.response.error == abort(cam).outcome.error)
  {
    Dispatch(WithoutArguments, req, staged, cam, io, toBuffered, toStatic, abort)
  }

  /** As written, an 'abort' request always raises TypeError, even when the
      server's abort would succeed, and never reaches `abort`. */
  lemma AbortRequestRaises<S>(staged: Option<string>, cam: S, io: Exchange,
                              toBuffered: (S, string) -> Effect<S>,
                              toStatic: (S, Option<string>) -> Effect<S>)
    ensures var passing := (s: S) => Effect(s, Pass);
            && Handler("abort", staged, cam, io, toBuffered, toStatic, passing).response == Err(TypeError)
            && HandlerIntended("abort", staged, cam, io, toBuffered, toStatic, passing) == Handled(cam, None, Ok("ok"), false)
  {
  }

  /** Whatever the server's `abort` does, the response and the staged path are
      those of the `try` block's failure: an exception from the internal abort
      never replaces the original one. */
  lemma AbortErrorSwallowed<S>(call: AbortCall, req: string, staged: Option<string>, cam: S, io: Exchange,
                               toBuffered: (S, string) -> Effect<S>,
                               toStatic: (S, Option<string>) -> Effect<S>,
                               abort1: S -> Effect<S>, abort2: S -> Effect<S>)
    requires call == WithExtraArguments || req != "abort"
    ensures var r1 := Dispatch(call, req, staged, cam, io, toBuffered, toStatic, abort1);
            var r2 := Dispatch(call, req, staged, cam, io, toBuffered, toStatic, abort2);
            r1.response == r2.response && r1.staged == r2.staged && r1.internalAbort == r2.internalAbort
  {
  }

  /** After any exception the staged path is cleared, and the internal abort
      ran exactly when a path was staged at the moment of failure and the
      request was not 'abort'. */
  lemma CleanupContract<S>(call: AbortCall, req: string, staged: Option<string>, cam: S, io: Exchange,
                           toBuffered: (S, string) -> Effect<S>,
                           toStatic: (S, Option<string>) -> Effect<S>,
                           abort: S -> Effect<S>)
    ensures var t := Attempt(call, req, staged, cam, io, toBuffered, toStatic, abort);
            var r := Dispatch(call, req, staged, cam, io, toBuffered, toStatic, abort);
            && (r.response.Err? ==> r.staged == None && r.response == t.response)
            && (r.internalAbort <==> r.response.Err? && t.staged.Some? && req != "abort")
            && (r.response.Ok? ==> r == t)
  {
  }
}

=== FILE: outcomes.dfy ===
/** Failure-carrying values shared by every module of the camera model.

    The modelled code is Python: an operation either returns or raises. A
    raised exception is represented by its class (`Error`). A vendor, driver,
    file or transport call whose behaviour lies outside the model is
    represented by the answer it gives: a `Call` when it returns a value, an
    `Outcome` when it returns nothing. An oracle sequence supplies the answers
    of successive calls of one kind; a call past the end of its oracle raises
    `DriverError`.
 */
module Outcomes {

  datatype Option<+T> = None | Some(value: T)

  /** Exception classes raised by the modelled code. */
  datatype Error =
    | AssertionError      // a failed `assert`
    | AttributeError      // an attribute read before anything assigned it
    | DriverError         // a vendor library call raised
    | IOError             // file or transport failure
    | IndexError          // list index out of range
    | KeyError            // lookup in a closed name/code table missed
    | TypeError           // wrong number or type of arguments
    | UnboundLocalError   // local variable read before assignment
    | ValueError          // invalid request, numpy shape mismatch

  datatype Result<+T> = Ok(value: T) | Err(error: Error)

  /** Answer of a call that returns nothing. */
  datatype Outcome = Pass | Fail(error: Error)

  /** Answer of a call that returns a value. */
  datatype Call<+T> = Returns(value: T) | Raises(error: Error)

  /** A state together with the result of the operation that produced it. */
  datatype Step<S, +T> = Step(state: S, result: Result<T>)

  /** Answer of call `i` from an oracle; calls past its end raise. */
  function CallAt<T>(answers: seq<Call<T>>, i: nat): Call<T> {
    if i < |answers| then answers[i] else Raises(DriverError)
  }

  /** Answer of call `i` from an oracle; calls past its end raise. */
  function OutcomeAt(answers: seq<Outcome>, i: nat): Outcome {
    if i < |answers| then answers[i] else Fail(DriverError)
  }

  /** Index of the first of the checks 0..n-1 that fails, or n when all pass:
      where a `for` loop over n driver calls stops. */
  function FirstFailing(ok: nat -> bool, n: nat): (k: nat)
    ensures k <= n
    ensures forall j :: 0 <= j < k ==> ok(j)
    ensures k < n ==> !ok(k)
  {
    if n == 0 then 0
    else
      var k := FirstFailing(ok, n - 1);
      if k < n - 1 || !ok(n - 1) then k else n
  }

  /** The sequence 0, 1, ..., n-1: Python's `range(n)`. */
  function Range(n: nat): (s: seq<nat>)
    ensures |s| == n
    ensures forall i :: 0 <= i < n ==> s[i] == i
  {
    if n == 0 then [] else Range(n - 1) + [n - 1]
  }
}

=== FILE: pco_camera.dfy ===
/** Buffer-queue bookkeeping of the pco.edge binding (`PCOCamera`).

    The camera object holds an `armed` flag, the list of allocated buffer
    pointers (only its length matters here), the FIFO `added_buffers` of
    buffer numbers handed to the driver and the status words and image type
    that only the end of a successful `arm` assigns. Each of these attributes
    is absent until first assigned, so each is an `Option`. Every driver call may
    raise; its answer comes from an oracle field of the operation's `...Io`
    record.
 */
module PcoCamera {
  import opened Outcomes
  import opened PcoSettings

  /** Bounds on the number of buffers `arm` accepts. */
  const MinBuffers := 1
  const MaxBuffers := 16

  /** Buffers `get_images` arms with when the camera is not armed. */
  const DefaultBuffers := 3

  /** DLL status of a buffer whose event is set: the frame has landed. */
  const BufferEventSet := 0xC000_8000

  /** Bytes per pixel of the 16-bit images. */
  const BytesPerPixel := 2

  datatype Camera = Camera(
    armed: Option<bool>,
    pointers: Option<nat>,      // len(buffer_pointers)
    added: Option<seq<nat>>,    // added_buffers, oldest first
    frame: Option<(nat, nat)>,  // (width, height) of _image_datatype, with _dll_status and _driver_status
    width: nat,
    height: nat,
    bytesPerImage: nat,
    settings: Settings)

  /** The camera object before its first `disarm`: no attribute assigned. */
  const Unopened := Camera(None, None, None, None, 0, 0, 0, NoSettings)

  // ------------------------------------------------------------------ disarm

  /** Driver answers for `disarm`: stop recording, cancel pending images,
      then one `free_buffer` per allocated pointer. */
  datatype DisarmIo = DisarmIo(stopRecording: Outcome, cancel: Outcome, freed: seq<Outcome>)

  /** The buffers of `c` are freed without error. */
  predicate FreesAll(c: Camera, io: DisarmIo) {
    c.pointers.Some? ==> forall j :: 0 <= j < c.pointers.value ==> OutcomeAt(io.freed, j).Pass?
  }

  /** `disarm`: define `armed` if absent, stop, cancel, free every buffer,
      forget the pointers and clear `armed`. The queue of added buffers is
      left as it was. */
  function Disarm(c: Camera, io: DisarmIo): (r: Step<Camera, ()>)
    ensures r.state.armed.Some?
    ensures r.result.Ok? <==> io.stopRecording.Pass? && io.cancel.Pass? && FreesAll(c, io)
    ensures r.result.Ok? ==>
              && r.state.armed == Some(false)
              && (r.state.pointers == None || r.state.pointers == Some(0))
              && (r.state.pointers == None <==> c.pointers == None)
    ensures r.result.Err? ==> r.state.pointers == c.pointers && (c.armed.Some? ==> r.state.armed == c.armed)
    ensures r.state.added == c.added && r.state.frame == c.frame && r.state.settings == c.settings
    ensures r.state.width == c.width && r.state.height == c.height && r.state.bytesPerImage == c.bytesPerImage
  {
    var c0 := if c.armed.None? then c.(armed := Some(false)) else c;
    if io.stopRecording.Fail? then Step(c0, Err(io.stopRecording.error))
    else if io.cancel.Fail? then Step(c0, Err(io.cancel.error))
    else if c.pointers.None? then Step(c0.(armed := Some(false)), Ok(()))
    else
      var freed := (j: nat) => OutcomeAt(io.freed, j).Pass?;
      var k := FirstFailing(freed, c.pointers.value);
      if k < c.pointers.value then Step(c0, Err(OutcomeAt(io.freed, k).error))
      else
        assert FreesAll(c, io) by {
          forall j | 0 <= j < c.pointers.value ensures OutcomeAt(io.freed, j).Pass? { assert freed(j); }
        }
        Step(c0.(pointers := Some(0), armed := Some(false)), Ok(()))
  }

  /** A successful disarm followed by another whose stop and cancel calls
      succeed changes nothing: disarm is idempotent. */
  lemma DisarmIdempotent(c: Camera, first: DisarmIo, second: DisarmIo)
    requires Disarm(c, first).result.Ok?
    requires second.stopRecording.Pass? && second.cancel.Pass?
    ensures Disarm(Disarm(c, first).state, second) == Step(Disarm(c, first).state, Ok(()))
  {
  }

  /** Disarm works from the state before any attribute was assigned. */
  lemma DisarmUnopened(io: DisarmIo)
    requires io.stopRecording.Pass? && io.cancel.Pass?
    ensures Disarm(Unopened, io) == Step(Unopened.(armed := Some(false)), Ok(()))
  {
  }

  // --------------------------------------------------------------------- arm

  /** Driver answers for `arm`: the disarm of an armed camera, arming, the
      sensor size (width, height), the number each `allocate_buffer` call
      reports, the image-parameter and recording-state calls, and one
      `add_buffer` per buffer. */
  datatype ArmIo = ArmIo(
    disarm: DisarmIo,
    armCamera: Outcome,
    sizes: Call<(nat, nat)>,
    numbered: seq<Call<int>>,
    startRecording: Outcome,
    queued: seq<Outcome>)

  /** Allocation `i` reports buffer number `i`, as the binding asserts. */
  predicate AllocatesAs(io: ArmIo, i: nat) {
    CallAt(io.numbered, i) == Returns(i)
  }

  /** Error of a failed allocation: the driver's, or the assertion's. */
  function AllocationError(answer: Call<int>): Error {
    if answer.Raises? then answer.error else AssertionError
  }

  /** Every driver step of `arm(n)` on `c` succeeds. */
  predicate ArmSucceeds(c: Camera, n: int, io: ArmIo) {
    && MinBuffers <= n <= MaxBuffers
    && c.armed.Some?
    && (c.armed.value ==> Disarm(c, io.disarm).result.Ok?)
    && io.armCamera.Pass?
    && io.sizes.Returns?
    && (forall i :: 0 <= i < n ==> AllocatesAs(io, i))
    && io.startRecording.Pass?
    && (forall j :: 0 <= j < n ==> OutcomeAt(io.queued, j).Pass?)
  }

  /** `arm(n)`: check 1 <= n <= 16, disarm if armed, arm, read the sensor
      size, allocate buffers 0..n-1 of `width*height*2` bytes, start
      recording, set `armed` and queue every buffer in order; only when all
      of that succeeded, create the status words and the image type of the
      new sensor size. */
  function Arm(c: Camera, n: int, io: ArmIo): (r: Step<Camera, ()>)
    ensures !(MinBuffers <= n <= MaxBuffers) ==> r == Step(c, Err(AssertionError))
    ensures r.result.Ok? <==> ArmSucceeds(c, n, io)
    ensures r.result.Ok? ==>
              && r.state.armed == Some(true)
              && r.state.pointers == Some(n)
              && r.state.added == Some(Range(n))
              && r.state.bytesPerImage == r.state.width * r.state.height * BytesPerPixel
              && r.state.frame == Some((r.state.width, r.state.height))
              && r.state.settings == c.settings
    ensures r.result.Err? ==> r.state.frame == c.frame
  {
    if !(MinBuffers <= n <= MaxBuffers) then Step(c, Err(AssertionError))
    else if c.armed.None? then Step(c, Err(AttributeError))
    else
      var d := if c.armed.value then Disarm(c, io.disarm) else Step(c, Ok(()));
      if d.result.Err? then d
      else if io.armCamera.Fail? then Step(d.state, Err(io.armCamera.error))
      else
        match io.sizes
        case Raises(e) => Step(d.state, Err(e))
        case Returns(size) =>
          var sized := d.state.(width := size.0, height := size.1,
                                bytesPerImage := size.0 * size.1 * BytesPerPixel);
          var allocates := (i: nat) => AllocatesAs(io, i);
          var a := FirstFailing(allocates, n);
          if a < n then Step(sized.(pointers := Some(a + 1)), Err(AllocationError(CallAt(io.numbered, a))))
          else if io.startRecording.Fail? then Step(sized.(pointers := Some(n)), Err(io.startRecording.error))
          else
            var queues := (j: nat) => OutcomeAt(io.queued, j).Pass?;
            var q := FirstFailing(queues, n);
            var armed := sized.(pointers := Some(n), armed := Some(true), added := Some(Range(q)));
            if q < n then Step(armed, Err(OutcomeAt(io.queued, q).error))
            else
              assert forall i :: 0 <= i < n ==> AllocatesAs(io, i) by {
                forall i | 0 <= i < n ensures AllocatesAs(io, i) { assert allocates(i); }
              }
              assert forall j :: 0 <= j < n ==> OutcomeAt(io.queued, j).Pass? by {
                forall j | 0 <= j < n ensures OutcomeAt(io.queued, j).Pass? { assert queues(j); }
              }
              Step(armed.(frame := Some((size.0, size.1))), Ok(()))
  }

  // -------------------------------------------------------------- get_images

  /** Driver answers for `get_images`: the arm it may perform, then per loop
      iteration one `get_buffer_status` answer and one `add_buffer` answer. */
  datatype AcquireIo = AcquireIo(arm: ArmIo, status: seq<Call<nat>>, requeued: seq<Outcome>)

  /** What the acquisition loop leaves: the queue, the buffer each image was
      copied from, and how the loop ended. */
  datatype Acquired = Acquired(queue: seq<nat>, sources: seq<nat>, outcome: Outcome)

  /** Reading `buffer_pointers[n]`: absent list or index out of range raise. */
  function ReadBuffer(pointers: Option<nat>, n: nat): Outcome {
    if pointers.None? then Fail(AttributeError)
    else if n < pointers.value then Pass
    else Fail(IndexError)
  }

  /** The image type `arm` created, of shape (height, width), can be
      assigned to one (c.height, c.width) slot of the output array: numpy
      broadcasts a dimension only when it is equal or 1. */
  predicate FrameFits(c: Camera) {
    && c.frame.Some?
    && (c.frame.value.0 == c.width || c.frame.value.0 == 1)
    && (c.frame.value.1 == c.height || c.frame.value.1 == 1)
  }

  /** Copying buffer n into the output array: looking up its pointer may
      raise, then the assignment refuses an image type that does not fit. */
  function CopyImage(c: Camera, n: nat): (o: Outcome)
    ensures o.Pass? <==> ReadBuffer(c.pointers, n).Pass? && FrameFits(c)
  {
    var read := ReadBuffer(c.pointers, n);
    if read.Fail? then read
    else if FrameFits(c) then Pass
    else Fail(ValueError)
  }

  /** Iterations i..k-1 of the loop of `get_images` on camera `c`. `last` is
      the local `buffer_number` the previous iteration left (None before it
      is first bound). The status poll reads the oldest queued buffer number
      and then the status words, which are absent until an `arm` has
      completed. A ready oldest buffer is popped; the buffer named by
      `buffer_number` is copied out and, in a `finally`, re-queued at the
      back. A not-ready poll leaves `buffer_number` as it was. */
  function Acquire(queue: seq<nat>, c: Camera, last: Option<nat>, i: nat, k: nat, io: AcquireIo)
    : (r: Acquired)
    ensures r.outcome.Pass? ==> |r.sources| == if i < k then k - i else 0
    ensures i < k && c.frame.None? ==> r == Acquired(queue, [], Fail(if |queue| == 0 then IndexError else AttributeError))
    decreases k - i
  {
    if i >= k then Acquired(queue, [], Pass)
    else if |queue| == 0 then Acquired(queue, [], Fail(IndexError))
    else if c.frame.None? then Acquired(queue, [], Fail(AttributeError))
    else
      match CallAt(io.status, i)
      case Raises(e) => Acquired(queue, [], Fail(e))
      case Returns(status) =>
        var ready := status == BufferEventSet;
        var q := if ready then queue[1..] else queue;
        var current := if ready then Some(queue[0]) else last;
        match current
        case None => Acquired(q, [], Fail(UnboundLocalError))
        case Some(n) =>
          var copied := CopyImage(c, n);
          var requeue := OutcomeAt(io.requeued, i);
          if requeue.Fail? then Acquired(q, [], requeue)
          else if copied.Fail? then Acquired(q + [n], [], copied)
          else
            var rest := Acquire(q + [n], c, current, i + 1, k, io);
            Acquired(rest.queue, [n] + rest.sources, rest.outcome)
  }

  /** A `(count, height, width)` array of 16-bit images; `buffers[j]` is the
      buffer image j was copied from. */
  datatype Images = Images(height: nat, width: nat, buffers: seq<nat>)

  /** `get_images(k)`: arm with the default buffers when not armed, allocate
      the output array, insist on at least k queued buffers, then run the
      acquisition loop. */
  function GetImages(c: Camera, k: int, io: AcquireIo): (r: Step<Camera, Images>)
    ensures c.armed == Some(false) && r.result.Ok? ==>
              && Arm(c, DefaultBuffers, io.arm).result.Ok?
              && r.state.pointers == Some(DefaultBuffers)
    ensures c.armed == Some(true) && 0 <= k && c.added.Some? && |c.added.value| < k
            ==> r == Step(c, Err(AssertionError))
    ensures r.result.Ok? ==>
              && |r.result.value.buffers| == k
              && r.result.value.height == r.state.height
              && r.result.value.width == r.state.width
    ensures r.state.settings == c.settings
  {
    if c.armed.None? then Step(c, Err(AttributeError))
    else
      var a := if c.armed.value then Step(c, Ok(())) else Arm(c, DefaultBuffers, io.arm);
      if a.result.Err? then Step(a.state, Err(a.result.error))
      else if k < 0 then Step(a.state, Err(ValueError))
      else if a.state.added.None? then Step(a.state, Err(AttributeError))
      else if |a.state.added.value| < k then Step(a.state, Err(AssertionError))
      else
        var acq := Acquire(a.state.added.value, a.state, None, 0, k, io);
        var after := a.state.(added := Some(acq.queue));
        if acq.outcome.Fail? then Step(after, Err(acq.outcome.error))
        else Step(after, Ok(Images(after.height, after.width, acq.sources)))
  }

  /** Iterations i..k-1 all find the oldest buffer ready and re-queue it. */
  predicate AllReady(io: AcquireIo, i: nat, k: nat) {
    forall j :: i <= j < k ==> CallAt(io.status, j) == Returns(BufferEventSet) && OutcomeAt(io.requeued, j).Pass?
  }

  /** Every queued buffer number indexes an allocated pointer. */
  predicate Allocated(queue: seq<nat>, pointers: nat) {
    forall j :: 0 <= j < |queue| ==> queue[j] < pointers
  }

  /** When every poll is ready the loop rotates the queue: image j comes from
      the j-th queued buffer and those buffers move, in order, to the back. */
  lemma {:induction false} AcquireRotates(queue: seq<nat>, c: Camera, last: Option<nat>, i: nat, k: nat, io: AcquireIo)
    requires i <= k && k - i <= |queue|
    requires c.pointers.Some? && Allocated(queue, c.pointers.value) && FrameFits(c)
    requires AllReady(io, i, k)
    ensures Acquire(queue, c, last, i, k, io)
            == Acquired(queue[k - i..] + queue[..k - i], queue[..k - i], Pass)
    decreases k - i
  {
    if i < k {
      var n := queue[0];
      var next := queue[1..] + [n];
      var m := k - i - 1;
      assert CallAt(io.status, i) == Returns(BufferEventSet) && OutcomeAt(io.requeued, i).Pass?;
      assert CopyImage(c, n) == Pass;
      var rest := Acquire(next, c, Some(n), i + 1, k, io);
      assert Acquire(queue, c, last, i, k, io) == Acquired(rest.queue, [n] + rest.sources, rest.outcome);
      assert Allocated(next, c.pointers.value);
      AcquireRotates(next, c, Some(n), i + 1, k, io);
      SeqRotateStep(queue, m);
    }
  }

  /** Rotating by one and then by m is rotating by m + 1. */
  lemma SeqRotateStep(queue: seq<nat>, m: nat)
    requires m < |queue|
    ensures var next := queue[1..] + [queue[0]];
            && [queue[0]] + next[..m] == queue[..m + 1]
            && next[m..] + next[..m] == queue[m + 1..] + queue[..m + 1]
  {
  }

  /** `get_images(k)` on an armed camera whose polls are all ready: the images
      come from the first k queued buffers, and the queue is rotated by k, so
      its length and its contents as a multiset are unchanged. */
  lemma GetImagesRotatesQueue(c: Camera, k: nat, io: AcquireIo)
    requires c.armed == Some(true) && c.added.Some? && c.pointers.Some?
    requires k <= |c.added.value|
    requires Allocated(c.added.value, c.pointers.value) && FrameFits(c)
    requires AllReady(io, 0, k)
    ensures var q := c.added.value;
            GetImages(c, k, io) == Step(c.(added := Some(q[k..] + q[..k])), Ok(Images(c.height, c.width, q[..k])))
    ensures var q := c.added.value;
            |q[k..] + q[..k]| == |q| && multiset(q[k..] + q[..k]) == multiset(q)
  {
    var q := c.added.value;
    AcquireRotates(q, c, None, 0, k, io);
    var acq := Acquire(q, c, None, 0, k, io);
    assert acq == Acquired(q[k..] + q[..k], q[..k], Pass);
    RotationPreserves(q, k);
  }

  /** Rotating a sequence keeps its length and its elements. */
  lemma RotationPreserves(q: seq<nat>, k: nat)
    requires k <= |q|
    ensures |q[k..] + q[..k]| == |q| && multiset(q[k..] + q[..k]) == multiset(q)
  {
    assert q[..k] + q[k..] == q;
  }

  /** Arming a disarmed camera with n buffers and taking k <= n images, all
      ready, reads buffers 0..k-1 and leaves the queue k, ..., n-1, 0, ..., k-1. */
  lemma ArmThenGetImages(c: Camera, n: nat, k: nat, arm: ArmIo, io: AcquireIo)
    requires ArmSucceeds(c, n, arm)
    requires k <= n
    requires AllReady(io, 0, k)
    ensures var armed := Arm(c, n, arm).state;
            GetImages(armed, k, io).result == Ok(Images(armed.height, armed.width, Range(k)))
    ensures GetImages(Arm(c, n, arm).state, k, io).state.added == Some(Range(n)[k..] + Range(k))
  {
    var armed := Arm(c, n, arm).state;
    assert Range(n)[..k] == Range(k);
    GetImagesRotatesQueue(armed, k, io);
  }

  /** Not ready on the first poll: `buffer_number` was never bound, so the
      copy and the re-queue both raise and the queue is untouched. */
  lemma FirstPollNotReady(c: Camera, k: nat, io: AcquireIo, status: nat)
    requires c.armed == Some(true) && c.added.Some? && c.frame.Some?
    requires 1 <= k <= |c.added.value|
    requires CallAt(io.status, 0) == Returns(status) && status != BufferEventSet
    ensures GetImages(c, k, io) == Step(c, Err(UnboundLocalError))
  {
  }

  /** A first `arm(3)` whose third `add_buffer` raises leaves the camera
      armed with buffers 0 and 1 queued but without status words, so a
      following `get_images(2)` passes the buffer-count assertion and then
      raises AttributeError at the first status poll. */
  lemma PartialArmLacksStatus(c: Camera, io: ArmIo, acq: AcquireIo)
    requires c.armed == Some(false) && c.frame.None?
    requires io.armCamera.Pass? && io.sizes.Returns? && io.startRecording.Pass?
    requires forall i :: 0 <= i < 3 ==> AllocatesAs(io, i)
    requires OutcomeAt(io.queued, 0).Pass? && OutcomeAt(io.queued, 1).Pass? && OutcomeAt(io.queued, 2).Fail?
    ensures var a := Arm(c, 3, io);
            && a.result.Err?
            && a.state.armed == Some(true) && a.state.added == Some([0, 1])
            && GetImages(a.state, 2, acq) == Step(a.state, Err(AttributeError))
  {
    var queues := (j: nat) => OutcomeAt(io.queued, j).Pass?;
    assert queues(0) && queues(1) && !queues(2);
    assert FirstFailing(queues, 3) == 2;
    assert Range(2) == [0, 1];
  }

  /** `get_images` on a disarmed camera is `get_images` on the camera after
      arming it with the default three buffers. */
  lemma GetImagesArmsDefault(c: Camera, k: int, io: AcquireIo)
    requires c.armed == Some(false) && Arm(c, DefaultBuffers, io.arm).result.Ok?
    ensures GetImages(c, k, io) == GetImages(Arm(c, DefaultBuffers, io.arm).state, k, io)
    ensures GetImages(c, k, io).state.pointers == Some(DefaultBuffers)
  {
  }

  /** Ready on the first poll and not ready on the second: the stale buffer
      number is copied again and appended a second time, so the queue grows by
      one and holds that buffer twice. */
  lemma StalePollDuplicates(c: Camera, io: AcquireIo, status: nat)
    requires c.armed == Some(true) && c.added.Some? && c.pointers.Some?
    requires 2 <= |c.added.value| && c.added.value[0] < c.pointers.value && FrameFits(c)
    requires CallAt(io.status, 0) == Returns(BufferEventSet)
    requires CallAt(io.status, 1) == Returns(status) && status != BufferEventSet
    requires OutcomeAt(io.requeued, 0).Pass? && OutcomeAt(io.requeued, 1).Pass?
    ensures var q := c.added.value;
            GetImages(c, 2, io)
            == Step(c.(added := Some(q[1..] + [q[0], q[0]])), Ok(Images(c.height, c.width, [q[0], q[0]])))
    ensures var q := c.added.value;
            |q[1..] + [q[0], q[0]]| == |q| + 1
  {
    var q := c.added.value;
    var n := q[0];
    var once := q[1..] + [n];
    assert Acquire(once + [n], c, Some(n), 2, 2, io) == Acquired(once + [n], [], Pass);
    assert Acquire(once, c, Some(n), 1, 2, io) == Acquired(once + [n], [n], Pass);
    assert Acquire(q, c, None, 0, 2, io) == Acquired(once + [n], [n, n], Pass);
    assert once + [n] == q[1..] + [n, n];
  }

  // ---------------------------------------------------------- apply_settings

  /** Driver answers for `apply_settings`. */
  datatype SettingsIo = SettingsIo(disarm: DisarmIo, trigger: TriggerIo, exposure: ExposureIo, roi: Outcome)

  /** `apply_settings`: default to the full chip, disarm an armed camera, then
      set trigger mode, exposure time and ROI, in that order. The polarity
      argument is not used by the binding and is not modelled. */
  function ApplySettings(c: Camera, trigger: string, exposure: real, roi: Option<Roi>, io: SettingsIo)
    : (r: Step<Camera, ()>)
    ensures r.result.Ok? ==>
              && r.state.armed == Some(false)
              && r.state.settings.triggerMode == Some(trigger)
              && trigger in TriggerModes
              && r.state.settings.exposureMicros == Some(TruncateToInt(exposure) as real)
              && MinExposureMicros <= TruncateToInt(exposure) <= MaxExposureMicros
              && r.state.settings.roi == Some(if roi.Some? then roi.value else FullChip)
    ensures c.armed == Some(false) ==> r.state.pointers == c.pointers && r.state.added == c.added
    ensures c.armed.None? ==> r == Step(c, Err(AttributeError))
  {
    var region := if roi.Some? then roi.value else FullChip;
    if c.armed.None? then Step(c, Err(AttributeError))
    else
      var d := if c.armed.value then Disarm(c, io.disarm) else Step(c, Ok(()));
      if d.result.Err? then d
      else
        var t := SetTriggerMode(d.state.settings, trigger, io.trigger);
        if t.result.Err? then Step(d.state.(settings := t.state), Err(t.result.error))
        else
          var x := SetExposureTime(t.state, exposure, io.exposure);
          if x.result.Err? then Step(d.state.(settings := x.state), Err(x.result.error))
          else
            var placed := d.state.(settings := x.state.(roi := Some(region)));
            if io.roi.Fail? then Step(placed, Err(io.roi.error)) else Step(placed, Ok(()))
  }

  /** The converse of `ApplySettings`' success clause: with `armed` defined
      and any needed disarm succeeding, a known trigger mode and an exposure
      within range, and a driver that accepts every write and echoes the
      written values, `apply_settings` succeeds. */
  lemma ApplySettingsSucceeds(c: Camera, trigger: string, exposure: real, roi: Option<Roi>, io: SettingsIo)
    requires c.armed.Some? && (c.armed.value ==> Disarm(c, io.disarm).result.Ok?)
    requires TriggerModeCode(trigger).Some?
    requires io.trigger.write.Pass? && io.trigger.readBack == Returns(TriggerModeCode(trigger).value)
    requires MinExposureMicros <= TruncateToInt(exposure) <= MaxExposureMicros
    requires io.exposure.write.Pass? && io.exposure.readBack == Returns(Written(TruncateToInt(exposure)))
    requires io.roi.Pass?
    ensures ApplySettings(c, trigger, exposure, roi, io).result.Ok?
  {
  }
}

=== FILE: pco_settings.dfy ===
/** Camera parameters of the pco.edge binding: the closed trigger-mode,
    trigger-polarity and time-base tables, and the exposure-time range check
    with its time-base conversion. Every driver call is an oracle answer.
 */
module PcoSettings {
  import opened Outcomes

  /** Trigger-mode register code to name, as `_get_trigger_mode` decodes it. */
  function TriggerModeName(code: int): Option<string> {
    if code == 0 then Some("auto_trigger")
    else if code == 1 then Some("software_trigger")
    else if code == 2 then Some("external_trigger")
    else if code == 3 then Some("external_exposure")
    else None
  }

  /** Trigger-mode name to register code, as `_set_trigger_mode` encodes it. */
  function TriggerModeCode(name: string): Option<int> {
    if name == "auto_trigger" then Some(0)
    else if name == "software_trigger" then Some(1)
    else if name == "external_trigger" then Some(2)
    else if name == "external_exposure" then Some(3)
    else None
  }

  /** Polarity code of the trigger I/O signal to name. */
  function PolarityName(code: int): Option<string> {
    if code == 4 then Some("raising")
    else if code == 8 then Some("falling")
    else None
  }

  /** Polarity name to the code of the trigger I/O signal. */
  function PolarityCode(name: string): Option<int> {
    if name == "raising" then Some(4)
    else if name == "falling" then Some(8)
    else None
  }

  /** Names of the exposure and delay time bases the driver reports. */
  function TimeBaseName(base: int): Option<string> {
    if base == 0 then Some("ns")
    else if base == 1 then Some("us")
    else if base == 2 then Some("ms")
    else None
  }

  const TriggerModes: set<string> :=
    {"auto_trigger", "software_trigger", "external_trigger", "external_exposure"}

  /** The two trigger-mode tables are mutual inverses. */
  lemma TriggerModeTablesInverse(name: string, code: int)
    ensures TriggerModeCode(name) == Some(code) <==> TriggerModeName(code) == Some(name)
    ensures TriggerModeCode(name).Some? <==> name in TriggerModes
    ensures TriggerModeName(code).Some? <==> 0 <= code <= 3
  {
  }

  /** The two polarity tables are mutual inverses over {raising, falling}. */
  lemma PolarityTablesInverse(name: string, code: int)
    ensures PolarityCode(name) == Some(code) <==> PolarityName(code) == Some(name)
    ensures PolarityCode(name).Some? <==> name == "raising" || name == "falling"
    ensures PolarityName(code).Some? <==> code == 4 || code == 8
  {
  }

  /** Round trip through the trigger-mode tables, both ways. */
  lemma TriggerModeRoundTrip(name: string, code: int)
    ensures TriggerModeCode(name).Some? ==> TriggerModeName(TriggerModeCode(name).value) == Some(name)
    ensures TriggerModeName(code).Some? ==> TriggerModeCode(TriggerModeName(code).value) == Some(code)
  {
  }

  // ---------------------------------------------------------------- exposure

  /** Shortest and longest exposure accepted for the pco.edge 4.2, in µs. */
  const MinExposureMicros := 100
  const MaxExposureMicros := 10_000_000

  /** Time base the binding writes the exposure with: 1 = microseconds. */
  const MicrosecondBase := 1

  /** Python's `int(x)` on a float: truncation toward zero. */
  function TruncateToInt(x: real): (n: int)
    ensures 0.0 <= x ==> n as real <= x < n as real + 1.0
    ensures x < 0.0 ==> n as real - 1.0 < x <= n as real
  {
    if 0.0 <= x then x.Floor else -((-x).Floor)
  }

  /** 10 raised to an integer power, negative powers included: `10.**e`. */
  function Pow10(e: int): (p: real)
    ensures p > 0.0
    decreases if e >= 0 then e else -e
  {
    if e == 0 then 1.0
    else if e > 0 then 10.0 * Pow10(e - 1)
    else Pow10(e + 1) / 10.0
  }

  /** Exposure in µs of a driver value in time base `base`:
      `value * 10.**(3*base - 3)`. */
  function ExposureMicros(value: nat, base: nat): real {
    value as real * Pow10(3 * base - 3)
  }

  /** The conversion scales nanoseconds down, keeps microseconds and scales
      milliseconds up. */
  lemma ExposureTimeBases(value: nat)
    ensures ExposureMicros(value, 0) == value as real / 1000.0
    ensures ExposureMicros(value, 1) == value as real
    ensures ExposureMicros(value, 2) == value as real * 1000.0
  {
    assert Pow10(-3) == Pow10(-2) / 10.0 == Pow10(-1) / 100.0 == 1.0 / 1000.0;
    assert Pow10(3) == 1000.0 && Pow10(0) == 1.0;
  }

  /** In microseconds the read-back value is exactly the written value, so the
      binding's equality assertion holds exactly when the driver echoes it. */
  lemma MicrosecondReadBack(value: nat, requested: int)
    ensures ExposureMicros(value, MicrosecondBase) == requested as real <==> value == requested
  {
    ExposureTimeBases(value);
  }

  // ---------------------------------------------------------------- settings

  /** Region of interest, in sensor pixels, 1-based and inclusive. */
  datatype Roi = Roi(left: int, top: int, right: int, bottom: int)

  /** The ROI `apply_settings` uses when none is given: the full chip. */
  const FullChip := Roi(1, 1, 2048, 2048)

  /** The settings attributes the binding caches on the camera object; each
      is absent until first assigned. */
  datatype Settings = Settings(
    triggerMode: Option<string>,
    exposureMicros: Option<real>,
    delay: Option<nat>,
    roi: Option<Roi>)

  const NoSettings := Settings(None, None, None, None)

  /** Driver answers for `_set_trigger_mode`: the write, then the read-back of
      the trigger-mode register. */
  datatype TriggerIo = TriggerIo(write: Outcome, readBack: Call<int>)

  /** `_get_trigger_mode`: read the register and name it. An unknown code
      raises before the cached name is updated. */
  function ReadTriggerMode(s: Settings, readBack: Call<int>): (r: Step<Settings, string>)
    ensures r.result.Ok? <==> readBack.Returns? && TriggerModeName(readBack.value).Some?
    ensures r.result.Ok? ==> TriggerModeCode(r.result.value) == Some(readBack.value)
    ensures r.result.Ok? ==> r.state == s.(triggerMode := Some(r.result.value))
    ensures r.result.Err? ==> r.state == s
  {
    match readBack
    case Raises(e) => Step(s, Err(e))
    case Returns(code) =>
      match TriggerModeName(code)
      case None => Step(s, Err(KeyError))
      case Some(name) => Step(s.(triggerMode := Some(name)), Ok(name))
  }

  /** `_set_trigger_mode`: encode the name (KeyError when unknown), write it,
      read it back and assert the read-back name equals the requested one. */
  function SetTriggerMode(s: Settings, mode: string, io: TriggerIo): (r: Step<Settings, string>)
    ensures r.result.Ok? ==>
              && mode in TriggerModes
              && r.result.value == mode
              && r.state == s.(triggerMode := Some(mode))
    ensures r.result.Ok? <==>
              && TriggerModeCode(mode).Some?
              && io.write.Pass?
              && io.readBack == Returns(TriggerModeCode(mode).value)
    ensures mode !in TriggerModes ==> r == Step(s, Err(KeyError))
    ensures r.state == s || r.state == s.(triggerMode := r.state.triggerMode)
  {
    match TriggerModeCode(mode)
    case None => Step(s, Err(KeyError))
    case Some(code) =>
      if io.write.Fail? then Step(s, Err(io.write.error))
      else
        var got := ReadTriggerMode(s, io.readBack);
        if got.result.Err? then got
        else if got.result.value == mode then got
        else Step(got.state, Err(AssertionError))
  }

  /** Values of the driver's `DWORD` and `WORD` registers. */
  type U32 = x: int | 0 <= x < 0x1_0000_0000
  type U16 = x: int | 0 <= x < 0x1_0000

  /** A Python integer passed as a `c_uint32` argument: wrapped modulo 2^32. */
  function AsU32(x: int): (w: U32)
    ensures 0 <= x < 0x1_0000_0000 ==> w == x
    ensures exists q: int :: x == q * 0x1_0000_0000 + w
  {
    assert x == (x / 0x1_0000_0000) * 0x1_0000_0000 + x % 0x1_0000_0000;
    x % 0x1_0000_0000
  }

  /** What `PCO_GetDelayExposureTime` reports: delay, exposure, and their
      time bases. */
  datatype DelayExposure = DelayExposure(delay: U32, exposure: U32, delayBase: U16, exposureBase: U16)

  /** What `_set_exposure_time` writes for `micros`: no delay, both time bases
      in microseconds. */
  function Written(micros: int): DelayExposure {
    DelayExposure(0, AsU32(micros), MicrosecondBase, MicrosecondBase)
  }

  /** Driver answers for `_set_exposure_time`: the write, then the read-back. */
  datatype ExposureIo = ExposureIo(write: Outcome, readBack: Call<DelayExposure>)

  /** `_get_exposure_time`: both time bases are looked up (the delay one
      inside a log call whose argument is always evaluated), then the
      exposure and delay are cached. */
  function ReadExposureTime(s: Settings, readBack: Call<DelayExposure>): (r: Step<Settings, real>)
    ensures r.result.Ok? <==>
              && readBack.Returns?
              && TimeBaseName(readBack.value.exposureBase).Some?
              && TimeBaseName(readBack.value.delayBase).Some?
    ensures r.result.Ok? ==>
              && r.result.value == ExposureMicros(readBack.value.exposure, readBack.value.exposureBase)
              && r.state == s.(exposureMicros := Some(r.result.value), delay := Some(readBack.value.delay))
    ensures r.result.Err? ==> r.state == s
  {
    match readBack
    case Raises(e) => Step(s, Err(e))
    case Returns(d) =>
      if TimeBaseName(d.exposureBase).None? || TimeBaseName(d.delayBase).None? then Step(s, Err(KeyError))
      else
        var micros := ExposureMicros(d.exposure, d.exposureBase);
        Step(s.(exposureMicros := Some(micros), delay := Some(d.delay)), Ok(micros))
  }

  /** The tail of `_set_exposure_time`: write `micros` in microseconds, read
      it back, and assert the read-back equals it. */
  function WriteExposure(s: Settings, micros: int, io: ExposureIo): (r: Step<Settings, real>)
    ensures r.result.Ok? ==>
              && 0 <= micros
              && r.result.value == micros as real
              && r.state.exposureMicros == Some(micros as real)
    ensures 0 <= micros < 0x1_0000_0000 && io.write.Pass? && io.readBack == Returns(Written(micros))
            ==> r.result == Ok(micros as real)
    ensures !(0 <= micros < 0x1_0000_0000) && io.write.Pass? && io.readBack == Returns(Written(micros))
            ==> r == Step(ReadExposureTime(s, io.readBack).state, Err(AssertionError))
    ensures r.state.triggerMode == s.triggerMode && r.state.roi == s.roi
  {
    if io.write.Fail? then Step(s, Err(io.write.error))
    else
      var got := ReadExposureTime(s, io.readBack);
      if got.result.Err? then got
      else if got.result.value == micros as real then
        assert 0.0 <= got.result.value by {
          var d := io.readBack.value;
          assert 0.0 < Pow10(3 * d.exposureBase - 3);
        }
        got
      else Step(got.state, Err(AssertionError))
  }

  /** `_set_exposure_time` as evidently intended: truncate to an integer,
      check the pco.edge 4.2 range, then write and read back. */
  function SetExposureTime(s: Settings, requested: real, io: ExposureIo): (r: Step<Settings, real>)
    ensures var micros := TruncateToInt(requested);
            r.result.Ok? ==>
              && MinExposureMicros <= micros <= MaxExposureMicros
              && r.result.value == micros as real
              && r.state.exposureMicros == Some(micros as real)
    ensures var micros := TruncateToInt(requested);
            !(MinExposureMicros <= micros <= MaxExposureMicros) ==> r == Step(s, Err(AssertionError))
    ensures var micros := TruncateToInt(requested);
            MinExposureMicros <= micros <= MaxExposureMicros && io.write.Pass? && io.readBack == Returns(Written(micros))
            ==> r.result == Ok(micros as real)
    ensures r.state.triggerMode == s.triggerMode && r.state.roi == s.roi
  {
    var micros := TruncateToInt(requested);
    if !(MinExposureMicros <= micros <= MaxExposureMicros) then Step(s, Err(AssertionError))
    else WriteExposure(s, micros, io)
  }

  /** `_set_exposure_time` as CPython 2.7 evaluates it: the guard
      `camera_type is 'edge 4.2'` compares two separately compiled string
      constants that are not interned, so it is false and the range check is
      skipped. Within the range it agrees with the intended version. */
  function SetExposureTimeAsWritten(s: Settings, requested: real, io: ExposureIo): (r: Step<Settings, real>)
    ensures r.result.Ok? ==>
              && 0 <= TruncateToInt(requested)
              && r.result.value == TruncateToInt(requested) as real
              && r.state.exposureMicros == Some(TruncateToInt(requested) as real)
    ensures MinExposureMicros <= TruncateToInt(requested) <= MaxExposureMicros
            ==> r == SetExposureTime(s, requested, io)
    ensures var micros := TruncateToInt(requested);
            !(0 <= micros < 0x1_0000_0000) && io.write.Pass? && io.readBack == Returns(Written(micros))
            ==> r.result == Err(AssertionError)
  {
    WriteExposure(s, TruncateToInt(requested), io)
  }

  /** A 50 µs exposure, below the sensor's 100 µs minimum, is accepted as
      written when the driver echoes it, while the intended check rejects it. */
  lemma ShortExposureAccepted(s: Settings, io: ExposureIo)
    requires io.write.Pass? && io.readBack == Returns(Written(50))
    ensures SetExposureTimeAsWritten(s, 50.0, io).result == Ok(50.0)
    ensures SetExposureTime(s, 50.0, io) == Step(s, Err(AssertionError))
  {
  }

  /** A request of 2^32 + 100 µs is written as 100 µs by the `c_uint32`
      argument, so even a driver that echoes the written value fails the
      read-back assertion. */
  lemma LongExposureWraps(s: Settings, io: ExposureIo)
    requires io.write.Pass? && io.readBack == Returns(Written(0x1_0000_0064))
    ensures Written(0x1_0000_0064) == Written(100)
    ensures SetExposureTimeAsWritten(s, 4294967396.0, io).result == Err(AssertionError)
  {
    assert TruncateToInt(4294967396.0) == 0x1_0000_0064;
  }
}

=== FILE: pg_camera.dfy ===
/** Image retrieval of the PointGrey binding (`PointGreyCamera.grabImages`).

    Each of the n attempts asks the vendor library for a buffer. A
    `Fc2error` is reported and skipped; any other exception propagates. A
    retrieved buffer is decoded and reshaped, and a decoding error
    propagates too. The decoded frames accumulate in the camera's `images`
    list, which the call resets first.
 */
module PgCamera {
  import opened Outcomes
  import opened PixelDecode

  /** A retrieved MONO16 buffer: its bytes and its reported shape. */
  datatype RawImage = RawImage(data: seq<Byte>, rows: nat, cols: nat)

  /** Answer of one `retrieveBuffer` call. */
  datatype Retrieval = Retrieved(image: RawImage) | Fc2Error | Crashed(error: Error)

  type Frame = seq<seq<int>>

  /** The binding's state: whether capture runs, and the last grabbed images. */
  datatype PgCam = PgCam(capturing: bool, images: seq<Frame>)

  /** Answer of attempt i; attempts past the end of the oracle fail. */
  function RetrievalAt(rs: seq<Retrieval>, i: nat): Retrieval {
    if i < |rs| then rs[i] else Fc2Error
  }

  /** Decode and reshape one retrieved buffer. */
  function DecodeImage(img: RawImage): (r: Result<Frame>)
    ensures |img.data| == 2 * (img.rows * img.cols) ==>
              && r.Ok?
              && |r.value| == img.rows
              && Rectangular(r.value, img.cols)
              && Flatten(r.value) == DecodeWords(img.data).value
    ensures |img.data| % 2 == 0 && |img.data| != 2 * (img.rows * img.cols) ==> r == Err(ValueError)
  {
    match DecodeWords(img.data)
    case Err(e) => Err(e)
    case Ok(words) => Reshape(words, img.rows, img.cols)
  }

  /** What attempts i..n-1 leave: the frames appended, and how they ended. */
  datatype Grabbed = Grabbed(frames: seq<Frame>, outcome: Outcome)

  function Grab(rs: seq<Retrieval>, i: nat, n: nat): (g: Grabbed)
    ensures |g.frames| <= if i < n then n - i else 0
    decreases n - i
  {
    if i >= n then Grabbed([], Pass)
    else
      match RetrievalAt(rs, i)
      case Fc2Error => Grab(rs, i + 1, n)
      case Crashed(e) => Grabbed([], Fail(e))
      case Retrieved(img) =>
        match DecodeImage(img)
        case Err(e) => Grabbed([], Fail(e))
        case Ok(f) =>
          var rest := Grab(rs, i + 1, n);
          Grabbed([f] + rest.frames, rest.outcome)
  }

  /** Python's `xrange(n)` runs no iteration for a negative n. */
  function Attempts(n: int): nat {
    if n < 0 then 0 else n
  }

  /** `grabImages(n)`: reset the image list, make n attempts, return the list. */
  function GrabImages(cam: PgCam, n: int, rs: seq<Retrieval>): (r: Step<PgCam, seq<Frame>>)
    ensures |r.state.images| <= Attempts(n)
    ensures r.result.Ok? ==> r.result.value == r.state.images
    ensures r.state.capturing == cam.capturing
    ensures NoCrash(rs, 0, Attempts(n)) ==>
              && (r.result.Ok? <==> DecodeAll(Successes(rs, 0, Attempts(n))).Ok?)
              && (r.result.Ok? ==> r.result.value == DecodeAll(Successes(rs, 0, Attempts(n))).value)
  {
    var g := Grab(rs, 0, Attempts(n));
    GrabMatchesReference(rs, 0, Attempts(n));
    var after := cam.(images := g.frames);
    if g.outcome.Fail? then Step(after, Err(g.outcome.error)) else Step(after, Ok(g.frames))
  }

  // ------------------------------------------------------------ reference

  /** No attempt in i..n-1 raises anything but `Fc2error`. */
  predicate NoCrash(rs: seq<Retrieval>, i: nat, n: nat) {
    forall j :: i <= j < n ==> !RetrievalAt(rs, j).Crashed?
  }

  /** The buffers retrieved by attempts i..n-1, in retrieval order. */
  function Successes(rs: seq<Retrieval>, i: nat, n: nat): (s: seq<RawImage>)
    ensures |s| <= if i < n then n - i else 0
    decreases n - i
  {
    if i >= n then []
    else
      match RetrievalAt(rs, i)
      case Retrieved(img) => [img] + Successes(rs, i + 1, n)
      case _ => Successes(rs, i + 1, n)
  }

  /** Decode every buffer, failing at the first that does not decode. */
  function DecodeAll(imgs: seq<RawImage>): (r: Result<seq<Frame>>)
    ensures r.Ok? ==> |r.value| == |imgs|
    ensures r.Ok? ==> forall k :: 0 <= k < |imgs| ==> DecodeImage(imgs[k]) == Ok(r.value[k])
    ensures r.Err? ==> exists k :: 0 <= k < |imgs| && DecodeImage(imgs[k]).Err?
  {
    if |imgs| == 0 then Ok([])
    else
      match DecodeImage(imgs[0])
      case Err(e) => Err(e)
      case Ok(f) =>
        match DecodeAll(imgs[1..])
        case Err(e) =>
          var k :| 0 <= k < |imgs[1..]| && DecodeImage(imgs[1..][k]).Err?;
          assert DecodeImage(imgs[k + 1]).Err?;
          Err(e)
        case Ok(fs) => Ok([f] + fs)
  }

  /** Without crashes the loop yields exactly the decoded successful
      retrievals, in order: failed attempts are skipped, not fatal. */
  lemma {:induction false} GrabMatchesReference(rs: seq<Retrieval>, i: nat, n: nat)
    ensures NoCrash(rs, i, n) ==>
              && (Grab(rs, i, n).outcome.Pass? <==> DecodeAll(Successes(rs, i, n)).Ok?)
              && (Grab(rs, i, n).outcome.Pass? ==> Grab(rs, i, n).frames == DecodeAll(Successes(rs, i, n)).value)
    decreases n - i
  {
    if i < n && NoCrash(rs, i, n) {
      assert NoCrash(rs, i + 1, n);
      GrabMatchesReference(rs, i + 1, n);
      match RetrievalAt(rs, i)
      case Fc2Error =>
      case Crashed(e) =>
      case Retrieved(img) =>
        var s := Successes(rs, i, n);
        assert s == [img] + Successes(rs, i + 1, n);
        assert s[1..] == Successes(rs, i + 1, n);
    }
  }

  /** When every attempt succeeds and decodes, n frames come back, frame k
      being the decoding of buffer k. */
  lemma AllRetrieved(cam: PgCam, rs: seq<Retrieval>)
    requires forall j :: 0 <= j < |rs| ==> rs[j].Retrieved? && DecodeImage(rs[j].image).Ok?
    ensures GrabImages(cam, |rs|, rs).result.Ok?
    ensures var frames := GrabImages(cam, |rs|, rs).result.value;
            |frames| == |rs| && forall k :: 0 <= k < |rs| ==> Ok(frames[k]) == DecodeImage(rs[k].image)
  {
    SuccessesAll(rs, 0);
    var s := Successes(rs, 0, |rs|);
    assert NoCrash(rs, 0, |rs|) by {
      forall j | 0 <= j < |rs| ensures !RetrievalAt(rs, j).Crashed? { assert RetrievalAt(rs, j) == rs[j]; }
    }
    assert DecodeAll(s).Ok? by {
      forall k | 0 <= k < |s| ensures DecodeImage(s[k]).Ok? { assert s[k] == rs[k].image; }
    }
  }

  lemma {:induction false} SuccessesAll(rs: seq<Retrieval>, i: nat)
    requires i <= |rs|
    requires forall j :: 0 <= j < |rs| ==> rs[j].Retrieved?
    ensures |Successes(rs, i, |rs|)| == |rs| - i
    ensures forall k :: 0 <= k < |rs| - i ==> Successes(rs, i, |rs|)[k] == rs[i + k].image
    decreases |rs| - i
  {
    if i < |rs| {
      SuccessesAll(rs, i + 1);
    }
  }
}

=== FILE: pixel_decode.dfy ===
/** Little-endian 16-bit pixel decoding of the PointGrey binding.

    `grabImages` turns the byte buffer of a MONO16 frame into words with
    `_imdat[::2] + 256 * _imdat[1::2]` and reshapes them to rows x cols.
    The addition is numpy's: element-wise for equal lengths, broadcasting
    an operand of length 1, and a ValueError for any other pair of lengths.
 */
module PixelDecode {
  import opened Outcomes

  type Byte = x: int | 0 <= x < 0x100
  type Word = x: int | 0 <= x < 0x1_0000

  const LowRadix := 0x100

  /** `b[::2]`: the bytes at even offsets. */
  function Evens(b: seq<Byte>): seq<Byte> {
    seq((|b| + 1) / 2, j requires 0 <= j < (|b| + 1) / 2 => b[2 * j])
  }

  /** `b[1::2]`: the bytes at odd offsets. */
  function Odds(b: seq<Byte>): seq<Byte> {
    seq(|b| / 2, j requires 0 <= j < |b| / 2 => b[2 * j + 1])
  }

  /** `lo + 256 * hi` on two one-dimensional numpy arrays. */
  function CombineBytes(lo: seq<Byte>, hi: seq<Byte>): Result<seq<int>> {
    if |lo| == |hi| then Ok(seq(|lo|, j requires 0 <= j < |lo| => lo[j] + LowRadix * hi[j]))
    else if |lo| == 1 then Ok(seq(|hi|, j requires 0 <= j < |hi| => lo[0] + LowRadix * hi[j]))
    else if |hi| == 1 then Ok(seq(|lo|, j requires 0 <= j < |lo| => lo[j] + LowRadix * hi[0]))
    else Err(ValueError)
  }

  /** The decoded words of a byte buffer: `b[::2] + 256 * b[1::2]`. */
  function DecodeWords(bytes: seq<Byte>): (r: Result<seq<int>>)
    ensures |bytes| % 2 == 0 ==>
              && r.Ok?
              && |r.value| == |bytes| / 2
              && forall j :: 0 <= j < |r.value| ==> r.value[j] == bytes[2 * j] + LowRadix * bytes[2 * j + 1]
    ensures r.Ok? ==> forall j :: 0 <= j < |r.value| ==> 0 <= r.value[j] < 0x1_0000
    ensures r.Err? <==> |bytes| % 2 == 1 && |bytes| >= 5
    ensures |bytes| == 1 ==> r == Ok([])
    ensures |bytes| == 3 ==> r == Ok([bytes[0] + LowRadix * bytes[1], bytes[2] + LowRadix * bytes[1]])
  {
    var lo := Evens(bytes);
    var hi := Odds(bytes);
    if |bytes| == 3 then
      assert lo == [bytes[0], bytes[2]] && hi == [bytes[1]];
      var r := CombineBytes(lo, hi);
      assert r.value == [bytes[0] + LowRadix * bytes[1], bytes[2] + LowRadix * bytes[1]];
      r
    else
      CombineBytes(lo, hi)
  }

  /** The inverse of decoding: each word as its low byte then its high byte. */
  function EncodeWords(words: seq<Word>): (b: seq<Byte>)
    ensures |b| == 2 * |words|
  {
    if |words| == 0 then []
    else [words[0] % LowRadix, words[0] / LowRadix] + EncodeWords(words[1..])
  }

  lemma {:induction false} EncodeWordsAt(words: seq<Word>)
    ensures forall j :: 0 <= j < |words| ==>
              && EncodeWords(words)[2 * j] == words[j] % LowRadix
              && EncodeWords(words)[2 * j + 1] == words[j] / LowRadix
  {
    if |words| > 0 {
      EncodeWordsAt(words[1..]);
      var b := EncodeWords(words);
      assert b == [words[0] % LowRadix, words[0] / LowRadix] + EncodeWords(words[1..]);
      forall j | 1 <= j < |words|
        ensures b[2 * j] == words[j] % LowRadix && b[2 * j + 1] == words[j] / LowRadix
      {
        assert b[2 * j] == EncodeWords(words[1..])[2 * (j - 1)];
        assert b[2 * j + 1] == EncodeWords(words[1..])[2 * (j - 1) + 1];
      }
    }
  }

  /** Splitting a 16-bit word into its bytes and joining them gives it back. */
  lemma SplitJoin(w: Word)
    ensures w % LowRadix + LowRadix * (w / LowRadix) == w
    ensures 0 <= w / LowRadix < LowRadix
  {
  }

  /** Joining two bytes and splitting the result gives them back. */
  lemma JoinSplit(lo: Byte, hi: Byte)
    ensures (lo + LowRadix * hi) % LowRadix == lo
    ensures (lo + LowRadix * hi) / LowRadix == hi
  {
  }

  /** Round trip: decoding the little-endian bytes of words gives the words. */
  lemma DecodeEncode(words: seq<Word>)
    ensures DecodeWords(EncodeWords(words)) == Ok(words)
  {
    var b := EncodeWords(words);
    EncodeWordsAt(words);
    var r := DecodeWords(b);
    assert |r.value| == |words|;
    forall j | 0 <= j < |words| ensures r.value[j] == words[j] {
      SplitJoin(words[j]);
    }
    assert r.value == words;
  }

  /** Round trip the other way: every even-length buffer is the encoding of
      its decoded words. */
  lemma EncodeDecode(bytes: seq<Byte>)
    requires |bytes| % 2 == 0
    ensures forall j :: 0 <= j < |DecodeWords(bytes).value| ==> DecodeWords(bytes).value[j] < 0x1_0000
    ensures EncodeWords(DecodeWords(bytes).value) == bytes
  {
    var words: seq<Word> := DecodeWords(bytes).value;
    EncodeWordsAt(words);
    var b := EncodeWords(words);
    forall x | 0 <= x < |bytes| ensures b[x] == bytes[x] {
      var j := x / 2;
      JoinSplit(bytes[2 * j], bytes[2 * j + 1]);
      if x % 2 == 0 {
        assert x == 2 * j;
      } else {
        assert x == 2 * j + 1;
      }
    }
  }

  // ----------------------------------------------------------------- reshape

  lemma MulSucc(a: nat, b: nat)
    ensures (a + 1) * b == a * b + b
  {
  }

  /** Every row of `m` has `cols` entries. */
  predicate Rectangular(m: seq<seq<int>>, cols: nat) {
    forall i :: 0 <= i < |m| ==> |m[i]| == cols
  }

  /** The words cut into `rows` consecutive rows of `cols` words. */
  function Rows(words: seq<int>, rows: nat, cols: nat): (m: seq<seq<int>>)
    requires |words| == rows * cols
    ensures |m| == rows && Rectangular(m, cols)
    decreases rows
  {
    if rows == 0 then []
    else
      MulSucc(rows - 1, cols);
      [words[..cols]] + Rows(words[cols..], rows - 1, cols)
  }

  /** Row-major concatenation of rows: the inverse of reshape. */
  function Flatten(m: seq<seq<int>>): seq<int> {
    if |m| == 0 then [] else m[0] + Flatten(m[1..])
  }

  lemma {:induction false} FlattenRows(words: seq<int>, rows: nat, cols: nat)
    requires |words| == rows * cols
    ensures Flatten(Rows(words, rows, cols)) == words
    decreases rows
  {
    if rows > 0 {
      MulSucc(rows - 1, cols);
      FlattenRows(words[cols..], rows - 1, cols);
      assert words[..cols] + words[cols..] == words;
    }
  }

  /** `words.reshape((rows, cols))`: ValueError unless the sizes agree;
      otherwise rows x cols whose row-major reading is the words. */
  function Reshape(words: seq<int>, rows: nat, cols: nat): (r: Result<seq<seq<int>>>)
    ensures r.Ok? <==> rows * cols == |words|
    ensures r.Ok? ==> |r.value| == rows && Rectangular(r.value, cols) && Flatten(r.value) == words
  {
    if rows * cols != |words| then Err(ValueError)
    else
      FlattenRows(words, rows, cols);
      Ok(Rows(words, rows, cols))
  }

  /** Pixel (i, j) of the reshape is word `i * cols + j`. */
  lemma {:induction false} ReshapePixel(words: seq<int>, rows: nat, cols: nat, i: nat, j: nat)
    requires rows * cols == |words| && i < rows && j < cols
    ensures i * cols + j < |words|
    ensures Reshape(words, rows, cols).value[i][j] == words[i * cols + j]
    decreases i
  {
    MulSucc(rows - 1, cols);
    if i > 0 {
      MulSucc(i - 1, cols);
      ReshapePixel(words[cols..], rows - 1, cols, i - 1, j);
      assert Rows(words, rows, cols)[i] == Rows(words[cols..], rows - 1, cols)[i - 1];
    }
  }

  /** Flattening a rectangular matrix and reshaping it to the same shape gives
      it back. */
  lemma {:induction false} FlattenReshape(m: seq<seq<int>>, cols: nat)
    requires Rectangular(m, cols)
    ensures |Flatten(m)| == |m| * cols
    ensures Reshape(Flatten(m), |m|, cols) == Ok(m)
  {
    if |m| > 0 {
      MulSucc(|m| - 1, cols);
      assert Rectangular(m[1..], cols);
      FlattenReshape(m[1..], cols);
      var f := Flatten(m);
      assert f == m[0] + Flatten(m[1..]);
      assert f[..cols] == m[0];
      assert f[cols..] == Flatten(m[1..]);
      assert m == [m[0]] + m[1..];
    }
  }
}
